=== FILE: README.md ===
# Gameplay core of a top-down rush game, in Dafny

This project models the simulation core of a small DragonRuby action game. The player walks
with the direction keys. Holding the charge key builds up power, and releasing a charge of at
least 40 power launches a rush along the player's facing. The rush kills every enemy its swept
capsule touches. Killing every enemy wins the game. Projectiles queue hits on the player; a hit
costs hp behind a cooldown, and reaching 0 hp loses the game.

Each piece of the game is a module of immutable datatypes and pure step functions:

- `Geometry` (geometry.dfy): plane vectors, plus the host math (`Math.sqrt`, `cos`, `sin`,
  `atan2`, `PI`) as a record of function values. A property that needs an exact square root
  says so in a `requires`.
- `Options`, `Seqs` (seqs.dfy): Ruby's `nil`/`||=` as `Option`, and `select` as an
  order-preserving `Filter`.
- `Collision` (collision.dfy): the sphere-versus-capsule test and the point-to-segment squared
  distance. The distance routine comes in two versions: as written, and corrected (see
  Findings). The rest of the model uses the corrected one; "Left out" lists what that
  changes in the rush kills.
- `Entity` (entity.dfy): the shared body fields and the small predicates of main.rb
  (`moving?`, `moving_diagonally?`, `on_screen?`, `point_inside_rect?`,
  `moving_entity_collisions`).
- `Player` (player.dfy, modelling player.rb): the movement, charging and rushing states;
  the rush prediction; and hit intake with its flash and damage cooldowns.
- `CrescentMoon` (crescent_moon.dfy, modelling enemies/crescent_moon.rb): steering toward a
  drawn attack position under goal attraction and player repulsion, then a 180-tick attack
  phase.
- `RedArrow` (red_arrow.dfy, modelling enemies/red_arrow.rb): stand for 60 ticks, then run
  at speed 30 with quarter turns and a ten-sample trail. Nothing in `setup` creates a red
  arrow, so this module stands alone.
- `Game` (game.dfy, modelling main.rb `setup`/`update`): one frame. It covers the pause
  toggle, the player's tick, the early exit at game over, the living enemies' ticks, the
  projectile ticks and sweep, hit intake, and the integration of every position. `Run`
  chains frames.

Randomness enters as draw records (`Dice`), constrained to the ranges of the `rand`
calls they stand for. The projectile kinds' own tick is a function parameter of the frame
(`Game.Env`), since no projectile kind is part of this model.

Some details of the code that are easy to misread, all modelled as the code has them:

- The attack phase ends on tick 180; tick 120 only prints.
- Arrival within 50 switches straight to the attack state.
- A power-40 rush covers 150 + 100 + 50 + 50 = 350: the last velocity repeats on the frame
  the power runs out.
- The damage cooldown of 20 ticks is measured from the last screen flash, not from the last
  damage.
- The diagonal speed is 11 per axis, so a diagonal step is longer (√242) than a straight one
  (15).

## Model

| member | source | states |
|---|---|---|
| Collision.SquaredDistancePointSegment | mygame/app/collision.rb:10-27 | The corrected distance is nonnegative, and on a zero-length segment it is the squared distance to that point |
| Collision.SquaredDistanceIsMinimum | mygame/app/collision.rb:10-27 | The corrected value is at most the squared distance to every point of the segment, and equals it at some point: it is the true minimum |
| Collision.SquaredDistanceZeroIffOnSegment | mygame/app/collision.rb:10-27 | The corrected distance is zero exactly when the point lies on the segment |
| Collision.SegmentDistanceBelowPoint | mygame/app/collision.rb:10-27 | Lower-bound half of the minimum: no point at parameter t in [0, 1] is nearer |
| Collision.SquaredDistanceAtMostEndpoints | mygame/app/collision.rb:10-27 | The corrected value is never more than the squared distance to either endpoint |
| Collision.SegmentDistanceAttained | mygame/app/collision.rb:10-27 | Attainment half of the minimum: some t in [0, 1] realises the corrected value |
| Collision.AttainedInside | mygame/app/collision.rb:26 | When the projection falls strictly inside the segment, the interior formula is the distance to the foot of the perpendicular, at t = e / f in (0, 1) |
| Collision.InteriorNonnegative | mygame/app/collision.rb:26 | The interior expression \|p - s1\|² - e²/f is never negative (Cauchy-Schwarz via Lagrange's identity) |
| Collision.SquaredDistanceOutsideSegment | mygame/app/collision.rb:16-24 | A point behind the first endpoint is measured against the first endpoint; a point beyond the second endpoint is measured against the second |
| Collision.AsWrittenNonnegative | mygame/app/collision.rb:10-27 | The as-written routine, although wrong, never returns a negative value |
| Collision.AsWrittenDegenerate | mygame/app/collision.rb:10-27 | On a zero-length segment the as-written routine agrees with the true distance |
| Collision.AsWrittenAheadUsesFirstEndpoint | mygame/app/collision.rb:13-17 | As written, every point with a nonnegative true projection is measured against the first endpoint, however far along the segment it lies |
| Collision.AsWrittenMissesSecondEndpoint | mygame/app/collision.rb:3-27 | Counterexample: at (100, 0) against segment (0,0)-(100,0) the as-written value is 10000, not 0, and two radius-10 bodies touching there do not collide |
| Collision.AsWrittenMissesEverySecondEndpoint | mygame/app/collision.rb:10-27 | For every segment of positive length, a point on its second endpoint gets the full squared length as written, while the corrected value is 0 |
| Collision.CollisionIffSegmentPointWithinReach | mygame/app/collision.rb:3-8 | The sphere hits the capsule exactly when some point of the capsule's axis lies within the summed radii of the sphere's centre |
| Collision.CollisionRadiiSwap | mygame/app/collision.rb:5-7 | Only the radius sum matters: exchanging the two radii never changes either version's answer |
| Collision.SphereOnFirstEndpointCollides | mygame/app/collision.rb:3-27 | A sphere centred on the first endpoint always collides, in both versions |
| Collision.SphereOnSecondEndpointCollides | mygame/app/collision.rb:3-27 | A sphere centred on the second endpoint always collides under the corrected test |
| Collision.AsWrittenHitsBehindFirstEndpoint | mygame/app/collision.rb:13-26 | Counterexample: (-140, 0) lies 140 behind the segment (0,0)-(150,0), but as written its value is 0 (the interior branch measures it against the line), so two radius-50 bodies 140 apart are reported to touch |
| Collision.AsWrittenMissesPointAhead | mygame/app/collision.rb:13-17 | Counterexample: (140, 0) lies on the segment (0,0)-(150,0), but as written it is measured against the first endpoint (19600), so two radius-50 bodies there are reported apart |
| Seqs.Filter | mygame/app/main.rb:111 | `select!` keeps exactly the elements satisfying the predicate: in order (a subsequence), each with its full multiplicity, and nothing else |
| Entity.MovingIffIntegrationDisplaces | mygame/app/main.rb:128-134 | `moving?` holds exactly when integration changes the position; `moving_diagonally?` holds exactly when it changes both coordinates, and it implies `moving?` |
| Entity.OnScreenIsInsideWorld | mygame/app/main.rb:318-325 | `on_screen?` is `point_inside_rect?` for the 3200 x 1800 world rectangle |
| Entity.MovingEntityCollisions | mygame/app/main.rb:136-143 | The result is the subsequence of targets hit by the one-frame sweep: every kept target is hit, every hit target is kept, with as many copies as the targets hold |
| Entity.StationarySweepIsPointTest | mygame/app/main.rb:136-143 | For an entity at rest the sweep is a plain centre-distance test against the summed radii |
| Entity.SweepHitsBothEnds | mygame/app/main.rb:136-143 | A target at the start or at the end of the sweep is always hit by the corrected sweep; one at the start is hit by the as-written sweep too |
| Entity.SweepsDisagree | mygame/app/main.rb:136-143 | For a radius-50 body sweeping (0,0)-(150,0), the corrected sweep hits a radius-50 target at (140, 0) and misses one at (-140, 0); the as-written sweep does the opposite |
| CrescentMoon.DrawAttackPosition | mygame/app/enemies/crescent_moon.rb:38 | A drawn attack position lies in [100, 3099] x [100, 1699] |
| CrescentMoon.Build | mygame/app/enemies/crescent_moon.rb:4-12 | A built moon is valid, at rest at the given point, with no attack position drawn |
| CrescentMoon.GoalAttractionStrength | mygame/app/enemies/crescent_moon.rb:74-85 | Strength 2 from distance 500 on, 10 within 100, and the inverse law s·d = 1000 in between; always within [2, 10] |
| CrescentMoon.PlayerRepulsionStrength | mygame/app/enemies/crescent_moon.rb:93-102 | Within reach the strength is 9 up to distance 1000/9 and follows s·d = 1000 beyond it; always within [2, 9] |
| CrescentMoon.GoalAttractionStrengthAntitone | mygame/app/enemies/crescent_moon.rb:80-85 | Goal attraction never grows with distance |
| CrescentMoon.PlayerRepulsionStrengthAntitone | mygame/app/enemies/crescent_moon.rb:100-102 | Player repulsion never grows with distance |
| CrescentMoon.GoalAttraction | mygame/app/enemies/crescent_moon.rb:76-90 | Zero force at distance 0; otherwise, with an exact distance, a force of the attraction strength along goal - position: parallel to it (zero cross product) with projection strength times distance |
| CrescentMoon.PlayerRepulsion | mygame/app/enemies/crescent_moon.rb:95-107 | Zero beyond 500; (9, 0) at distance 0; otherwise, with an exact distance, a force of the repulsion strength along position - player: parallel to player - position with projection minus strength times distance |
| CrescentMoon.Rescale | mygame/app/enemies/crescent_moon.rb:56-58 | A velocity of zero host length is left as it is (see Left out) |
| CrescentMoon.RescaleToSpeed | mygame/app/enemies/crescent_moon.rb:56-58 | With an exact nonzero length the rescaled velocity has length `speed`, is parallel to the input, and points the same way for a positive speed |
| CrescentMoon.HandleMoveIntoAttackPosition | mygame/app/enemies/crescent_moon.rb:34-59 | The position is unchanged. An attack position is drawn only if none is stored. The moon enters a fresh attack at rest exactly when it is within 50 of that position; otherwise it keeps the position and takes the rescaled sum of velocity and both forces |
| CrescentMoon.SteeringMovesAtSpeed | mygame/app/enemies/crescent_moon.rb:49-58 | Away from its goal, with an exact nonzero steering sum, the moon leaves the step moving at speed 12 along that sum |
| CrescentMoon.HandleAttack | mygame/app/enemies/crescent_moon.rb:61-72 | One more attack tick; on tick 180 the moon returns to a fresh search; the body never changes; validity is kept |
| CrescentMoon.Tick | mygame/app/enemies/crescent_moon.rb:14-18 | Dispatch keeps validity and the position, and a living moon stays alive |
| CrescentMoon.AttackCountsUp | mygame/app/enemies/crescent_moon.rb:61-72 | Below tick 180, n attack frames advance the tick count by exactly n |
| CrescentMoon.AttackLasts180Ticks | mygame/app/enemies/crescent_moon.rb:61-72 | A fresh attack is still attacking after each of the first 179 frames, and the 180th ends it |
| RedArrow.Build | mygame/app/enemies/red_arrow.rb:4-13 | A built arrow is valid, at rest at the given point, facing 0 and standing |
| RedArrow.HandleStanding | mygame/app/enemies/red_arrow.rb:59-68 | One more standing tick; the arrow switches to a fresh running state exactly when the count exceeds 60 |
| RedArrow.Turn | mygame/app/enemies/red_arrow.rb:87 | A quarter turn lands in [0, 360), always changes the angle, and keeps the facing axis-aligned |
| RedArrow.RunVelocity | mygame/app/enemies/red_arrow.rb:80-81 | The run velocity is parallel to the host direction of the facing with projection 30 on it; for a unit direction its length is 30 |
| RedArrow.Remember | mygame/app/enemies/red_arrow.rb:91-92 | The trail is the newest at most ten samples of the old trail plus the new sample, ending with the new sample |
| RedArrow.HandleRunning | mygame/app/enemies/red_arrow.rb:70-93 | The velocity uses the pre-turn facing. The arrow turns exactly when the countdown expires or it did not move, and then redraws the countdown. The countdown stays within [1, 39]. The trail gains the post-turn sample |
| RedArrow.Tick | mygame/app/enemies/red_arrow.rb:15-19 | Dispatch keeps validity (axis-aligned facing, bounded countdown and trail) and the position |
| RedArrow.FirstRunningFrameKeepsFacing | mygame/app/enemies/red_arrow.rb:74-89 | On the first running frame the empty trail never counts as "did not move" and a fresh countdown has not expired, so the arrow does not turn |
| RedArrow.StandingCountsUp | mygame/app/enemies/red_arrow.rb:59-68 | Up to 60, n standing frames advance the standing count by exactly n |
| RedArrow.StandsFor60Ticks | mygame/app/enemies/red_arrow.rb:59-68 | A built arrow stands through 60 frames and runs from the 61st |
| RedArrow.RunKeepsRightAngles | mygame/app/enemies/red_arrow.rb:70-93 | Over any number of frames the arrow stays valid: it faces an axis direction and its trail holds at most ten samples |
| Player.Build | mygame/app/player.rb:3-14 | A built player is valid, at rest in the movement state, with 60 hp, no hits, and a last-hit tick old enough for the first hit to count |
| Player.DiagonalSpeedIsRoundedQuotient | mygame/app/player.rb:117-118 | 15 / √2 lies in (10.5, 11.5), so the rounded diagonal speed is 11 |
| Player.UpdateVelocity | mygame/app/player.rb:120-138 | Left beats right and up beats down, with up as +y; a straight step has speed 15 and a diagonal step 11 per axis |
| Player.StartCharging | mygame/app/player.rb:140-143 | A fresh charge at power 0, standing still; everything else is kept |
| Player.HandleMovement | mygame/app/player.rb:101-115 | After game over the player only stops. Otherwise the velocity follows the keys, the facing follows a nonzero velocity via atan2, and the charge key starts a charge at rest |
| Player.DrainedPower | mygame/app/player.rb:219 | The power drops by 10, floored at 0; it reaches 0 exactly from 10 or less |
| Player.ExecuteRush | mygame/app/player.rb:217-225 | The power drains by 10. While power remains, the velocity is `power div 2 * 10` along the facing. On the frame it runs out, the body is left unchanged |
| Player.RushLengthOfReadyCharge | mygame/app/player.rb:188-199 | A power-40 rush covers 350 (speeds 150, 100, 50 and the last 50 repeated) |
| Player.RushPathClosedForm | mygame/app/player.rb:188-199 | The frame-by-frame path length equals the closed form (n+1)(10h - 25n) - 50n |
| Player.SimulatedRushAlongHeading | mygame/app/player.rb:188-199 | Whatever its start velocity, the simulated rush of power above 10 moves along the facing by exactly its nonnegative path length |
| Player.LengthAlongUnitHeading | mygame/app/player.rb:198 | The host length of l times a unit heading is l |
| Player.PredictRushDistanceIsRushLength | mygame/app/player.rb:188-199 | With an exact square root and a unit heading, the predicted distance is the closed-form rush length |
| Player.HandleCharging | mygame/app/player.rb:157-186 | While the key is held, ticks count up and power equals the tick count capped at 120. The charge is ready exactly from power 40, and a ready charge stores its predicted distance. On release, a ready charge becomes a rush of that power and any other returns to movement |
| Player.Kill | mygame/app/player.rb:207-211 | A hit enemy becomes a fresh corpse at rest in place |
| Player.KillSwept | mygame/app/player.rb:205-211 | Exactly the enemies the rusher's sweep touches are killed, dead or alive, and every `moving_entity_collisions` result is killed; the rest are untouched |
| Player.HandleRushing | mygame/app/player.rb:201-215 | One rush step, then the sweep kills. The game is won exactly when every enemy is dead, or it already was won. The player returns to movement exactly when the power is spent |
| Player.Tick | mygame/app/player.rb:16-20 | Validity is kept and the position does not change. Only a rush touches enemies (each kept or killed) or the game state (which can only become won). Hits and hp are untouched |
| Player.RushFollowsPrediction | mygame/app/player.rb:188-225 | For the player alone (every frame integrated), the prediction is what happens: a rush ends in movement, displaced by exactly the simulated displacement |
| Player.Damage | mygame/app/player.rb:84-89 | A shuriken costs 10, a red arrow 20, anything else 0 |
| Player.TotalDamage | mygame/app/player.rb:71-92 | The summed damage lies in [0, 20 per hit], and is 0 when no hit has a damaging type |
| Player.TotalDamageAppend | mygame/app/player.rb:71-90 | Damage adds up over a split queue, so taking hits one by one equals taking their total |
| Player.HandleHits | mygame/app/player.rb:52-97 | No hits: nothing changes. After game over: hits discarded, nothing else. Otherwise, measured from the last flash: a gap above 60 moves the flash to now; a gap above 20 applies the total damage floored at 0 and loses at 0 hp. The queue is always emptied, hp never rises, and nothing else changes |
| Player.HandleHitsPreservesValid | mygame/app/player.rb:86-92 | Hit intake keeps hp within [0, 60] and the player invariant |
| Player.HitsInsideCooldownAreDropped | mygame/app/player.rb:69-96 | Hits inside the 20-tick cooldown leave hp untouched and are discarded, not deferred |
| Game.Setup | mygame/app/main.rb:18-40 | The initial world is valid and playing: the player at (1600, 900), one moon searching at (2000, 1000), no projectiles |
| Game.TickEnemies | mygame/app/main.rb:101-105 | Dead enemies are skipped unchanged; each living one is replaced by `CrescentMoon.Tick` with its own draw and the player's position, and stays alive, in place and valid |
| Game.TickProjectiles | mygame/app/main.rb:107-110 | Each projectile is ticked once, in order, and the hits queued are exactly the hits of the ticks joined in projectile order; none arise unless some tick produces them |
| Game.IntegrateMoons | mygame/app/main.rb:115-118 | Each enemy moves by its own velocity; its state, velocity and radius are kept |
| Game.IntegrateProjectiles | mygame/app/main.rb:115-118 | Each projectile moves by its own velocity and keeps its liveness |
| Game.AdvanceEnemies | mygame/app/main.rb:101-118 | Each enemy is its tick (a living one) or itself (a dead one), moved once by the resulting velocity. Living and dead stay so, each ends at its old position plus its new velocity, and validity is kept |
| Game.AdvancePlayer | mygame/app/main.rb:107-118 | The old queue and this frame's hits are taken in together: past the 20-tick cooldown hp drops by their summed damage, floored at 0, and the game is lost exactly at 0 hp; otherwise hp and outcome are kept. The flash tick moves to now past 60. The queue ends empty, state and facing are kept, the player moves once by its velocity, and validity is kept |
| Game.FinishFrame | mygame/app/main.rb:101-118 | Statements about the rest of a running frame. Only a fatal hit changes the outcome, and life or death of each enemy is kept. Only live projectiles remain. Every entity moves once by its final velocity, and validity is kept |
| Game.Update | mygame/app/main.rb:93-122 | The pause key toggles pausing, and a paused frame changes nothing else; no enemy is added or removed and no projectile is added |
| Game.UpdateOutcome | mygame/app/main.rb:93-119 | Over a frame, dead enemies stay dead. A new win needs every enemy dead and a rushing player, and a new loss needs 0 hp. A playing game was playing before |
| Game.UpdateAfterGameOver | mygame/app/main.rb:96-99 | Whenever the player's tick leaves the game over (the winning frame included), only that tick runs. No enemy ticks or moves (each is unchanged or killed by the rush), the player does not move, no hit is taken in and projectiles are untouched. The outcome changes only to won, by a rush under way |
| Game.UpdateFullFrame | mygame/app/main.rb:101-118 | A frame that runs to the end empties the hit queue and never raises hp. It keeps only live projectiles and moves the player and every enemy once by their final velocity |
| Game.UpdateTicksLivingEnemies | mygame/app/main.rb:101-118 | In a frame that runs to the end, each enemy the player's tick left alive is `CrescentMoon.Tick` with its own draw and the player's position, then moved once; a dead one is only moved |
| Game.UpdatePreservesValid | mygame/app/main.rb:93-119 | A frame keeps every entity's invariant |
| Game.UpdateKeepsLiveProjectiles | mygame/app/main.rb:107-118 | After a frame that runs to the end, the projectile list holds, moved once, exactly the projectiles still alive after their ticks, in their order and with their multiplicities: each live one is there and nothing else is |
| Game.UpdateTakesInHits | mygame/app/main.rb:107-113 | In a frame that runs to the end, the hits `handle_hits` takes in are the old queue plus this frame's projectile hits: past the damage cooldown hp drops by their summed damage, floored at 0; otherwise hp is unchanged |
| Game.UpdateRushFrame | mygame/app/main.rb:93-118 | A rush frame that runs to the end moves the player exactly as the player-only rush frame does; one whose rush ends the game stops before integration, leaving the player where it was |
| Game.RushRunsAsPredicted | mygame/app/main.rb:93-118 | When every frame runs to the end, a rush of positive power lasts one frame per 10 power (rounded up), ends in movement, and displaces the player by exactly the predicted displacement, as the player-only rush does |
| Game.PausedWorldStaysFrozen | mygame/app/main.rb:94-96 | A paused world stays exactly as it is for as long as the pause key is not pressed |
| Game.WonIsFinal | mygame/app/main.rb:96-99 | Once won, the game stays won whatever the inputs |

## Left out

- Rendering is left out: the sprites, the hp bar, the facing triangle, the labels,
  `scaled_to_screen`, the screen flash animation, blood stains and charge particles. None of it
  feeds back into the simulation.
- Audio, `process_input` (the input snapshot `Player.Input` is a parameter of each frame),
  `handle_debug`/`render_force_debug`, `positions_around`, `unit_vector` and `format_vector`
  are left out. They are rendering, debug or unused helpers.
- mygame/lib/profiling.rb, colors.rb, lib/animations.rb and lib/screen.rb are not part of
  this model.
- `Math.sqrt`, `Math.cos`, `Math.sin`, `Math.atan2` and `Math::PI` are parameters
  (`Geometry.Numerics`). Properties that need exact results say so in their `requires`.
- `rand` and `Array#sample` are parameters (`CrescentMoon.Dice`, `RedArrow.Dice`), limited to
  the ranges the source draws from.
- Game.Run: reuses one `Env`, and so one set of draws, for every frame, so a moon that returns
  to searching redraws the same attack position each time. The run lemmas (`WonIsFinal`,
  `PausedWorldStaysFrozen`, `RushRunsAsPredicted`) state nothing that depends on the draws.
- The projectile kinds are not part of this model: their tick is the parameter
  `Game.Env.projectileTick`, which yields the projectile afterwards and the hits it queues.
- Ruby's Float rounding and its Integer/Float mix are left out: all positions, velocities and
  distances are exact reals. The integer-valued constants the source computes with integer
  division (`10 / 4`, `9 / 4`, `power.idiv(2)`) are kept exact.
- Collision.SquaredDistancePointSegment: uses real division. Ruby's `Integer#/` would floor
  `e * e / f` when every coordinate is an Integer.
- CrescentMoon.Rescale: when the velocity sum has host length exactly 0, Ruby divides by zero
  and produces NaN components. The model keeps the zero vector instead.
- The crescent moon's `face_angle` is never changed by the simulation and nothing reads it, so
  it is left out.
- Game.Update: the source integrates `moving_entities`, which `setup` builds as the player and
  the one crescent moon, the same moon as the enemy list. The model integrates the player and
  every enemy, which is that list for the world `setup` builds.
- Entity.MovingEntityCollisions: selects by the corrected sweep (`Entity.SweptHit`). The
  source's `moving_entity_collisions` calls the as-written routine, which keeps and drops
  different targets (`Entity.SweepsDisagree`).
- Entity.SweepHitsBothEnds: the far-end hit holds only for the corrected sweep. As written, a
  target on the far end of a positive-length sweep is measured a full sweep length away.
- Player.KillSwept: kills the enemies the corrected sweep touches, not those the as-written
  sweep of the source touches.
- Player.HandleRushing: its killed enemies, and so whether the frame wins, follow the corrected
  sweep.
- Player.Tick: inherits the corrected sweep through `Player.HandleRushing`.
- Game.Update: the kills and wins of rush frames follow the corrected sweep, so they can differ
  from the source's for a target near either end of the sweep.
- Player.RushFollowsPrediction: integrates the player on every frame. In the game a rush
  frame that wins stops before integration (`Game.UpdateRushFrame`), so a rush that kills the
  last enemy mid-way stops short of the predicted distance. `Game.RushRunsAsPredicted` states
  the prediction only for runs whose every frame goes to the end.
- `Player.tick`'s dispatch by name (`send("handle_#{type}")`) is modelled as a `match` over the
  state datatype.

## Findings

| source | as written | input that shows it | evidently intended | confidence | as-written member | corrected member |
|---|---|---|---|---|---|---|
| mygame/app/collision.rb:13-17 | `ps1 = s1 - p`, so `e` is the negated projection of the point onto the segment. Every point with a nonnegative projection, on the segment or beyond it, is measured against the first endpoint. A point behind the first endpoint by less than the segment's length gets its squared distance to the line through the segment. Only points further behind are measured against the second endpoint | Point (100, 0) on segment (0, 0)-(100, 0): the as-written value is 10000, not 0. A radius-10 sphere there misses a radius-10 capsule it touches (`Collision.AsWrittenMissesSecondEndpoint`). The same holds for any point on the second endpoint of any segment (`Collision.AsWrittenMissesEverySecondEndpoint`). Point (-140, 0) against (0, 0)-(150, 0) gets 0 as written, a false hit (`Collision.AsWrittenHitsBehindFirstEndpoint`); for a rush sweep this kills a target 140 behind and spares one 140 ahead (`Entity.SweepsDisagree`) | `ps1 = p - s1`: the minimum squared distance from the point to the segment, proved in `Collision.SquaredDistanceIsMinimum` | high; not executed | Collision.SquaredDistancePointSegmentAsWritten | Collision.SquaredDistancePointSegment |

=== FILE: collision.dfy ===
/** Sphere-versus-swept-capsule overlap (collision.rb).

    The source's point-to-segment routine measures the projection parameter with the wrong
    sign (see README, Findings). `SquaredDistancePointSegmentAsWritten` models it as written;
    `SquaredDistancePointSegment` is the corrected routine, proved to be the true minimum
    squared distance over the segment, and it is the one the rest of the model uses. */
module Collision {
  import opened Geometry

  /** Squared distance between (ax, ay) and (bx, by). */
  function SqDist(ax: real, ay: real, qx: real, qy: real): real
  {
    (ax - qx) * (ax - qx) + (ay - qy) * (ay - qy)
  }

  /** Dot product of the segment direction `s2 - s1` with `p - s1`. */
  function Projection(px: real, py: real, x1: real, y1: real, x2: real, y2: real): real
  {
    (x2 - x1) * (px - x1) + (y2 - y1) * (py - y1)
  }

  /** Squared distance from (px, py) to the point `t` of the way from (x1, y1) to (x2, y2). */
  function SegmentPointSqDist(px: real, py: real, x1: real, y1: real, x2: real, y2: real, t: real): real
  {
    SqDist(x1 + t * (x2 - x1), y1 + t * (y2 - y1), px, py)
  }

  /** `e` as written: the segment direction dotted with `s1 - p`. */
  function FlippedProjection(px: real, py: real, x1: real, y1: real, x2: real, y2: real): real
  {
    (x2 - x1) * (x1 - px) + (y2 - y1) * (y1 - py)
  }

  /** The three branches of the routine, given the squared distances `u1` and `u2` to the two
      endpoints, the projection value `e` and the squared segment length `f`. */
  function Clamped(u1: real, u2: real, e: real, f: real): real
  {
    if e <= 0.0 then u1
    else if e >= f then u2
    else u1 - (e * e) / f
  }

  /** The routine as written: the vector from the first endpoint is taken as `s1 - p`. */
  function SquaredDistancePointSegmentAsWritten(px: real, py: real, x1: real, y1: real, x2: real, y2: real): real
  {
    Clamped(SqDist(x1, y1, px, py), SqDist(x2, y2, px, py),
      FlippedProjection(px, py, x1, y1, x2, y2), SqDist(x2, y2, x1, y1))
  }

  /** The as-written routine still never goes negative. */
  lemma AsWrittenNonnegative(px: real, py: real, x1: real, y1: real, x2: real, y2: real)
    ensures SquaredDistancePointSegmentAsWritten(px, py, x1, y1, x2, y2) >= 0.0
  {
    SqDistNonnegative(x1, y1, px, py);
    SqDistNonnegative(x2, y2, px, py);
    if SqDist(x2, y2, x1, y1) > 0.0 {
      FlippedProjectionFacts(px, py, x1, y1, x2, y2);
      InteriorNonnegative(px, py, x1, y1, x2, y2);
      ClampedNonnegative(SqDist(x1, y1, px, py), SqDist(px, py, x1, y1), SqDist(x2, y2, px, py),
        FlippedProjection(px, py, x1, y1, x2, y2), Projection(px, py, x1, y1, x2, y2), SqDist(x2, y2, x1, y1));
    } else {
      ClampedOnEmptySegment(SqDist(x1, y1, px, py), SqDist(x2, y2, px, py),
        FlippedProjection(px, py, x1, y1, x2, y2), SqDist(x2, y2, x1, y1));
    }
  }

  /** The branches are nonnegative when both endpoint distances are and the interior value is
      the (nonnegative) corrected one. */
  lemma ClampedNonnegative(u1: real, u1': real, u2: real, e: real, p: real, f: real)
    requires u1 == u1' && u1 >= 0.0 && u2 >= 0.0 && e == -p && f > 0.0
    requires u1' - (p * p) / f >= 0.0
    ensures Clamped(u1, u2, e, f) >= 0.0
  {
    if 0.0 < e < f {
      NegatedInterior(u1, u1', e, p, f);
    }
  }

  /** Without a positive segment length the interior branch is never taken. */
  lemma ClampedOnEmptySegment(u1: real, u2: real, e: real, f: real)
    requires u1 >= 0.0 && u2 >= 0.0 && f <= 0.0
    ensures Clamped(u1, u2, e, f) >= 0.0
  {
  }

  /** On a segment of zero length the as-written routine is the distance to that point. */
  lemma AsWrittenDegenerate(px: real, py: real, x: real, y: real)
    ensures SquaredDistancePointSegmentAsWritten(px, py, x, y, x, y) == SqDist(px, py, x, y)
  {
    FlippedProjectionFacts(px, py, x, y, x, y);
  }

  /** The flipped projection is the negated true one, the squared distances do not depend on
      the order of the points, and a segment of zero length has no direction. */
  lemma FlippedProjectionFacts(px: real, py: real, x1: real, y1: real, x2: real, y2: real)
    ensures FlippedProjection(px, py, x1, y1, x2, y2) == -Projection(px, py, x1, y1, x2, y2)
    ensures SqDist(x1, y1, px, py) == SqDist(px, py, x1, y1)
    ensures SqDist(x2, y2, px, py) == SqDist(px, py, x2, y2)
    ensures x1 == x2 && y1 == y2 ==> FlippedProjection(px, py, x1, y1, x2, y2) == 0.0
  {
  }

  /** Negating `e` and exchanging the points of a squared distance do not change the interior
      value. */
  lemma NegatedInterior(u: real, u2: real, e: real, p: real, f: real)
    requires f > 0.0 && u == u2 && e == -p && u2 - (p * p) / f >= 0.0
    ensures u - (e * e) / f >= 0.0
  {
    assert e * e == p * p;
  }

  /** The corrected routine: the vector from the first endpoint to the point is `p - s1`. */
  function SquaredDistancePointSegment(px: real, py: real, x1: real, y1: real, x2: real, y2: real): (r: real)
    ensures r >= 0.0
    ensures x1 == x2 && y1 == y2 ==> r == SqDist(px, py, x1, y1)
  {
    var e := Projection(px, py, x1, y1, x2, y2);
    if e <= 0.0 then
      SqDistNonnegative(px, py, x1, y1);
      SqDist(px, py, x1, y1)
    else
      var f := SqDist(x2, y2, x1, y1);
      if e >= f then
        SqDistNonnegative(px, py, x2, y2);
        SqDist(px, py, x2, y2)
      else
        InteriorNonnegative(px, py, x1, y1, x2, y2);
        SqDist(px, py, x1, y1) - (e * e) / f
  }

  lemma SqDistNonnegative(ax: real, ay: real, qx: real, qy: real)
    ensures SqDist(ax, ay, qx, qy) >= 0.0
  {
    SqSumNonnegative(ax - qx, ay - qy);
  }


  /** Lagrange's identity in the plane. */
  lemma Lagrange(px: real, py: real, x1: real, y1: real, x2: real, y2: real)
    ensures var c := (px - x1) * (y2 - y1) - (py - y1) * (x2 - x1);
      SqDist(px, py, x1, y1) * SqDist(x2, y2, x1, y1) - Projection(px, py, x1, y1, x2, y2) * Projection(px, py, x1, y1, x2, y2)
      == c * c
  {
  }

  /** Cauchy-Schwarz in the plane: the interior branch never goes negative. */
  lemma InteriorNonnegative(px: real, py: real, x1: real, y1: real, x2: real, y2: real)
    requires SqDist(x2, y2, x1, y1) > 0.0
    ensures SqDist(px, py, x1, y1) - (Projection(px, py, x1, y1, x2, y2) * Projection(px, py, x1, y1, x2, y2)) / SqDist(x2, y2, x1, y1) >= 0.0
  {
    Lagrange(px, py, x1, y1, x2, y2);
    var c := (px - x1) * (y2 - y1) - (py - y1) * (x2 - x1);
    SqSumNonnegative(c, 0.0);
    QuotientBound(SqDist(px, py, x1, y1), Projection(px, py, x1, y1, x2, y2), SqDist(x2, y2, x1, y1), c * c);
  }

  lemma QuotientBound(u2: real, e: real, f: real, g: real)
    requires f > 0.0 && g >= 0.0 && u2 * f - e * e == g
    ensures u2 - (e * e) / f >= 0.0
  {
    var q := (e * e) / f;
    assert q * f == e * e;
    assert (u2 - q) * f == g;
    PositiveFactor(u2 - q, f);
  }

  /** Expands the squared distance to the point at parameter `t`. */
  lemma SegmentPointExpansion(px: real, py: real, x1: real, y1: real, x2: real, y2: real, t: real)
    ensures SegmentPointSqDist(px, py, x1, y1, x2, y2, t)
      == t * t * SqDist(x2, y2, x1, y1) - 2.0 * t * Projection(px, py, x1, y1, x2, y2) + SqDist(px, py, x1, y1)
  {
  }

  lemma SecondEndpointExpansion(px: real, py: real, x1: real, y1: real, x2: real, y2: real)
    ensures SqDist(px, py, x2, y2)
      == SqDist(px, py, x1, y1) - 2.0 * Projection(px, py, x1, y1, x2, y2) + SqDist(x2, y2, x1, y1)
  {
  }

  /** The corrected distance is at most the distance to the point at any `t` in [0, 1]. */
  lemma SegmentDistanceBelowPoint(px: real, py: real, x1: real, y1: real, x2: real, y2: real, t: real)
    requires 0.0 <= t <= 1.0
    ensures SquaredDistancePointSegment(px, py, x1, y1, x2, y2) <= SegmentPointSqDist(px, py, x1, y1, x2, y2, t)
  {
    var e := Projection(px, py, x1, y1, x2, y2);
    var f := SqDist(x2, y2, x1, y1);
    if e <= 0.0 {
      BelowPointBehindFirst(px, py, x1, y1, x2, y2, t);
    } else if e >= f {
      BelowPointBeyondSecond(px, py, x1, y1, x2, y2, t);
    } else {
      BelowPointInterior(px, py, x1, y1, x2, y2, t);
    }
  }

  lemma BelowPointBehindFirst(px: real, py: real, x1: real, y1: real, x2: real, y2: real, t: real)
    requires 0.0 <= t <= 1.0 && Projection(px, py, x1, y1, x2, y2) <= 0.0
    ensures SquaredDistancePointSegment(px, py, x1, y1, x2, y2) <= SegmentPointSqDist(px, py, x1, y1, x2, y2, t)
  {
    SegmentPointExpansion(px, py, x1, y1, x2, y2, t);
    SqDistNonnegative(x2, y2, x1, y1);
    BelowBehindFirst(t, Projection(px, py, x1, y1, x2, y2), SqDist(x2, y2, x1, y1), SqDist(px, py, x1, y1));
  }

  lemma BelowPointBeyondSecond(px: real, py: real, x1: real, y1: real, x2: real, y2: real, t: real)
    requires 0.0 <= t <= 1.0 && 0.0 < Projection(px, py, x1, y1, x2, y2)
    requires SqDist(x2, y2, x1, y1) <= Projection(px, py, x1, y1, x2, y2)
    ensures SquaredDistancePointSegment(px, py, x1, y1, x2, y2) <= SegmentPointSqDist(px, py, x1, y1, x2, y2, t)
  {
    SqDistNonnegative(x2, y2, x1, y1);
    SegmentPointExpansion(px, py, x1, y1, x2, y2, t);
    SecondEndpointExpansion(px, py, x1, y1, x2, y2);
    BelowBeyondSecond(t, Projection(px, py, x1, y1, x2, y2), SqDist(x2, y2, x1, y1), SqDist(px, py, x1, y1));
  }

  lemma BelowPointInterior(px: real, py: real, x1: real, y1: real, x2: real, y2: real, t: real)
    requires 0.0 < Projection(px, py, x1, y1, x2, y2) < SqDist(x2, y2, x1, y1)
    ensures SquaredDistancePointSegment(px, py, x1, y1, x2, y2) <= SegmentPointSqDist(px, py, x1, y1, x2, y2, t)
  {
    SegmentPointExpansion(px, py, x1, y1, x2, y2, t);
    BelowInterior(t, Projection(px, py, x1, y1, x2, y2), SqDist(x2, y2, x1, y1), SqDist(px, py, x1, y1));
  }

  lemma BelowBehindFirst(t: real, e: real, f: real, u2: real)
    requires 0.0 <= t && e <= 0.0 && f >= 0.0
    ensures u2 <= t * t * f - 2.0 * t * e + u2
  {
    assert t * e <= 0.0;
    assert t * t >= 0.0;
    assert (t * t) * f >= 0.0;
  }

  lemma BelowBeyondSecond(t: real, e: real, f: real, u2: real)
    requires 0.0 <= t <= 1.0 && e >= f >= 0.0
    ensures u2 - 2.0 * e + f <= t * t * f - 2.0 * t * e + u2
  {
    var s := 1.0 - t;
    assert (t * t * f - 2.0 * t * e + u2) - (u2 - 2.0 * e + f) == s * (2.0 * e - f - t * f);
    assert 2.0 * e - f - t * f >= s * f;
    assert s * (2.0 * e - f - t * f) >= s * (s * f);
    assert s * (s * f) >= 0.0;
  }

  lemma BelowInterior(t: real, e: real, f: real, u2: real)
    requires 0.0 < e < f
    ensures u2 - (e * e) / f <= t * t * f - 2.0 * t * e + u2
  {
    var q := (e * e) / f;
    assert q * f == e * e;
    var g := t * f - e;
    var diff := (t * t * f - 2.0 * t * e + u2) - (u2 - q);
    assert diff * f == g * g;
    SqSumNonnegative(g, 0.0);
    PositiveFactor(diff, f);
  }

  /** The corrected distance is attained at some point of the segment. */
  lemma SegmentDistanceAttained(px: real, py: real, x1: real, y1: real, x2: real, y2: real)
    returns (t: real)
    ensures 0.0 <= t <= 1.0
    ensures SquaredDistancePointSegment(px, py, x1, y1, x2, y2) == SegmentPointSqDist(px, py, x1, y1, x2, y2, t)
  {
    var e := Projection(px, py, x1, y1, x2, y2);
    var f := SqDist(x2, y2, x1, y1);
    SquaredDistanceOutsideSegment(px, py, x1, y1, x2, y2);
    if e <= 0.0 {
      t := 0.0;
      assert SegmentPointSqDist(px, py, x1, y1, x2, y2, t) == SqDist(px, py, x1, y1);
    } else if e >= f {
      t := 1.0;
      assert SegmentPointSqDist(px, py, x1, y1, x2, y2, t) == SqDist(px, py, x2, y2);
    } else {
      t := e / f;
      AttainedInside(px, py, x1, y1, x2, y2);
    }
  }

  /** A point whose projection falls strictly inside the segment is nearest to the point at
      parameter `e / f`. */
  lemma AttainedInside(px: real, py: real, x1: real, y1: real, x2: real, y2: real)
    requires 0.0 < Projection(px, py, x1, y1, x2, y2) < SqDist(x2, y2, x1, y1)
    ensures var t := Projection(px, py, x1, y1, x2, y2) / SqDist(x2, y2, x1, y1);
      0.0 < t < 1.0 && SquaredDistancePointSegment(px, py, x1, y1, x2, y2) == SegmentPointSqDist(px, py, x1, y1, x2, y2, t)
  {
    var e := Projection(px, py, x1, y1, x2, y2);
    var f := SqDist(x2, y2, x1, y1);
    var u2 := SqDist(px, py, x1, y1);
    assert SquaredDistancePointSegment(px, py, x1, y1, x2, y2) == u2 - (e * e) / f;
    SegmentPointExpansion(px, py, x1, y1, x2, y2, e / f);
    AttainedInterior(e, f, u2);
  }

  lemma AttainedInterior(e: real, f: real, u2: real)
    requires 0.0 < e < f
    ensures 0.0 < e / f < 1.0
    ensures (e / f) * (e / f) * f - 2.0 * (e / f) * e + u2 == u2 - (e * e) / f
  {
    var t := e / f;
    assert t * f == e;
    PositiveFactor(t, f);
    assert t != 0.0;
    assert (1.0 - t) * f == f - e;
    PositiveFactor(1.0 - t, f);
    assert t != 1.0;
    var q := (e * e) / f;
    assert q * f == e * e;
    assert t * t * f == t * e;
    assert t * e * f == e * e;
    assert t * e == q;
  }

  /** The corrected routine measures a point behind the first endpoint against that endpoint
      and a point beyond the second endpoint against the second. */
  lemma SquaredDistanceOutsideSegment(px: real, py: real, x1: real, y1: real, x2: real, y2: real)
    ensures Projection(px, py, x1, y1, x2, y2) <= 0.0 ==>
      SquaredDistancePointSegment(px, py, x1, y1, x2, y2) == SqDist(px, py, x1, y1)
    ensures 0.0 < Projection(px, py, x1, y1, x2, y2) && SqDist(x2, y2, x1, y1) <= Projection(px, py, x1, y1, x2, y2) ==>
      SquaredDistancePointSegment(px, py, x1, y1, x2, y2) == SqDist(px, py, x2, y2)
  {
  }

  /** As written, every point lying ahead of the first endpoint (a nonnegative projection) is
      measured against the first endpoint, however far along the segment it lies. */
  lemma AsWrittenAheadUsesFirstEndpoint(px: real, py: real, x1: real, y1: real, x2: real, y2: real)
    requires Projection(px, py, x1, y1, x2, y2) >= 0.0
    ensures SquaredDistancePointSegmentAsWritten(px, py, x1, y1, x2, y2) == SqDist(px, py, x1, y1)
  {
    FlippedProjectionFacts(px, py, x1, y1, x2, y2);
  }

  /** The corrected routine is the minimum squared distance from the point to the segment. */
  lemma SquaredDistanceIsMinimum(px: real, py: real, x1: real, y1: real, x2: real, y2: real)
    ensures forall t :: 0.0 <= t <= 1.0 ==>
      SquaredDistancePointSegment(px, py, x1, y1, x2, y2) <= SegmentPointSqDist(px, py, x1, y1, x2, y2, t)
    ensures exists t :: (0.0 <= t <= 1.0 &&
      SquaredDistancePointSegment(px, py, x1, y1, x2, y2) == SegmentPointSqDist(px, py, x1, y1, x2, y2, t))
  {
    forall t | 0.0 <= t <= 1.0
      ensures SquaredDistancePointSegment(px, py, x1, y1, x2, y2) <= SegmentPointSqDist(px, py, x1, y1, x2, y2, t)
    {
      SegmentDistanceBelowPoint(px, py, x1, y1, x2, y2, t);
    }
    var t := SegmentDistanceAttained(px, py, x1, y1, x2, y2);
  }

  /** The corrected distance never exceeds the squared distance to either endpoint. */
  lemma SquaredDistanceAtMostEndpoints(px: real, py: real, x1: real, y1: real, x2: real, y2: real)
    ensures SquaredDistancePointSegment(px, py, x1, y1, x2, y2) <= SqDist(px, py, x1, y1)
    ensures SquaredDistancePointSegment(px, py, x1, y1, x2, y2) <= SqDist(px, py, x2, y2)
  {
    SegmentDistanceBelowPoint(px, py, x1, y1, x2, y2, 0.0);
    assert SegmentPointSqDist(px, py, x1, y1, x2, y2, 0.0) == SqDist(px, py, x1, y1);
    SegmentDistanceBelowPoint(px, py, x1, y1, x2, y2, 1.0);
    assert SegmentPointSqDist(px, py, x1, y1, x2, y2, 1.0) == SqDist(px, py, x2, y2);
  }

  /** Distance zero exactly when the point coincides with some point of the segment. */
  lemma SquaredDistanceZeroIffOnSegment(px: real, py: real, x1: real, y1: real, x2: real, y2: real)
    ensures SquaredDistancePointSegment(px, py, x1, y1, x2, y2) == 0.0
      <==> exists t :: 0.0 <= t <= 1.0 && SegmentPointSqDist(px, py, x1, y1, x2, y2, t) == 0.0
  {
    var t0 := SegmentDistanceAttained(px, py, x1, y1, x2, y2);
    if exists t :: 0.0 <= t <= 1.0 && SegmentPointSqDist(px, py, x1, y1, x2, y2, t) == 0.0 {
      var t :| 0.0 <= t <= 1.0 && SegmentPointSqDist(px, py, x1, y1, x2, y2, t) == 0.0;
      SegmentDistanceBelowPoint(px, py, x1, y1, x2, y2, t);
    }
  }

  /** `sphere_capsule_collision?` on the corrected distance. */
  predicate SphereCapsuleCollision(sx: real, sy: real, sr: real, x1: real, y1: real, x2: real, y2: real, cr: real)
  {
    var radiusSum := sr + cr;
    SquaredDistancePointSegment(sx, sy, x1, y1, x2, y2) <= radiusSum * radiusSum
  }

  /** `sphere_capsule_collision?` as written, on the as-written distance. */
  predicate SphereCapsuleCollisionAsWritten(sx: real, sy: real, sr: real, x1: real, y1: real, x2: real, y2: real, cr: real)
  {
    var radiusSum := sr + cr;
    SquaredDistancePointSegmentAsWritten(sx, sy, x1, y1, x2, y2) <= radiusSum * radiusSum
  }

  /** The sphere overlaps the capsule exactly when some point of the capsule's axis segment
      lies within the summed radii of the sphere's centre. */
  lemma CollisionIffSegmentPointWithinReach(sx: real, sy: real, sr: real, x1: real, y1: real, x2: real, y2: real, cr: real)
    ensures SphereCapsuleCollision(sx, sy, sr, x1, y1, x2, y2, cr)
      <==> exists t :: 0.0 <= t <= 1.0 && SegmentPointSqDist(sx, sy, x1, y1, x2, y2, t) <= (sr + cr) * (sr + cr)
  {
    SquaredDistanceIsMinimum(sx, sy, x1, y1, x2, y2);
  }

  /** Only the sum of the radii matters, so exchanging them never changes the answer. */
  lemma CollisionRadiiSwap(sx: real, sy: real, sr: real, x1: real, y1: real, x2: real, y2: real, cr: real)
    ensures SphereCapsuleCollision(sx, sy, sr, x1, y1, x2, y2, cr) == SphereCapsuleCollision(sx, sy, cr, x1, y1, x2, y2, sr)
    ensures SphereCapsuleCollisionAsWritten(sx, sy, sr, x1, y1, x2, y2, cr) == SphereCapsuleCollisionAsWritten(sx, sy, cr, x1, y1, x2, y2, sr)
  {
  }

  /** A sphere centred on the capsule's first endpoint always collides (both versions). */
  lemma SphereOnFirstEndpointCollides(x1: real, y1: real, sr: real, x2: real, y2: real, cr: real)
    requires sr >= 0.0 && cr >= 0.0
    ensures SphereCapsuleCollision(x1, y1, sr, x1, y1, x2, y2, cr)
    ensures SphereCapsuleCollisionAsWritten(x1, y1, sr, x1, y1, x2, y2, cr)
  {
    assert Projection(x1, y1, x1, y1, x2, y2) == 0.0;
    assert SqDist(x1, y1, x1, y1) == 0.0;
    assert FlippedProjection(x1, y1, x1, y1, x2, y2) == 0.0;
    SqSumNonnegative(sr + cr, 0.0);
  }

  /** A sphere centred on the capsule's second endpoint always collides with the corrected test. */
  lemma SphereOnSecondEndpointCollides(x2: real, y2: real, sr: real, x1: real, y1: real, cr: real)
    requires sr >= 0.0 && cr >= 0.0
    ensures SphereCapsuleCollision(x2, y2, sr, x1, y1, x2, y2, cr)
  {
    SegmentDistanceBelowPoint(x2, y2, x1, y1, x2, y2, 1.0);
    assert SegmentPointSqDist(x2, y2, x1, y1, x2, y2, 1.0) == 0.0;
    SqSumNonnegative(sr + cr, 0.0);
  }

  /** The as-written routine reports the full segment length for a point sitting on the
      second endpoint, so a sphere there with radii 10 + 10 escapes a 100-long capsule. */
  lemma AsWrittenMissesSecondEndpoint()
    ensures SquaredDistancePointSegmentAsWritten(100.0, 0.0, 0.0, 0.0, 100.0, 0.0) == 10000.0
    ensures SquaredDistancePointSegment(100.0, 0.0, 0.0, 0.0, 100.0, 0.0) == 0.0
    ensures !SphereCapsuleCollisionAsWritten(100.0, 0.0, 10.0, 0.0, 0.0, 100.0, 0.0, 10.0)
    ensures SphereCapsuleCollision(100.0, 0.0, 10.0, 0.0, 0.0, 100.0, 0.0, 10.0)
  {
    assert SqDist(100.0, 0.0, 0.0, 0.0) == 10000.0;
    AsWrittenMissesEverySecondEndpoint(0.0, 0.0, 100.0, 0.0);
  }

  /** The as-written routine reports a positive distance for a point sitting exactly on the
      second endpoint of any segment of positive length. */
  lemma AsWrittenMissesEverySecondEndpoint(x1: real, y1: real, x2: real, y2: real)
    requires SqDist(x2, y2, x1, y1) > 0.0
    ensures SquaredDistancePointSegmentAsWritten(x2, y2, x1, y1, x2, y2) == SqDist(x2, y2, x1, y1)
    ensures SquaredDistancePointSegment(x2, y2, x1, y1, x2, y2) == 0.0
  {
    FlippedProjectionFacts(x2, y2, x1, y1, x2, y2);
    assert Projection(x2, y2, x1, y1, x2, y2) == SqDist(x2, y2, x1, y1);
    assert SqDist(x2, y2, x2, y2) == 0.0;
  }

  /** The as-written routine measures a point behind the first endpoint, by less than the
      segment's length, against the line through the segment rather than against the first
      endpoint: (-140, 0) is at distance 0 from the segment (0, 0)-(150, 0) as written, and
      140 away in truth, so two radius-50 bodies 140 apart are reported to touch. */
  lemma AsWrittenHitsBehindFirstEndpoint()
    ensures SquaredDistancePointSegmentAsWritten(-140.0, 0.0, 0.0, 0.0, 150.0, 0.0) == 0.0
    ensures SquaredDistancePointSegment(-140.0, 0.0, 0.0, 0.0, 150.0, 0.0) == 19600.0
    ensures SphereCapsuleCollisionAsWritten(-140.0, 0.0, 50.0, 0.0, 0.0, 150.0, 0.0, 50.0)
    ensures !SphereCapsuleCollision(-140.0, 0.0, 50.0, 0.0, 0.0, 150.0, 0.0, 50.0)
  {
    assert FlippedProjection(-140.0, 0.0, 0.0, 0.0, 150.0, 0.0) == 21000.0;
    assert SqDist(150.0, 0.0, 0.0, 0.0) == 22500.0;
    assert SqDist(0.0, 0.0, -140.0, 0.0) == 19600.0;
    assert Projection(-140.0, 0.0, 0.0, 0.0, 150.0, 0.0) == -21000.0;
    assert SqDist(-140.0, 0.0, 0.0, 0.0) == 19600.0;
  }

  /** A point 140 along the same segment lies on it, but as written it is measured against
      the first endpoint, so two radius-50 bodies are reported apart. */
  lemma AsWrittenMissesPointAhead()
    ensures SquaredDistancePointSegmentAsWritten(140.0, 0.0, 0.0, 0.0, 150.0, 0.0) == 19600.0
    ensures SquaredDistancePointSegment(140.0, 0.0, 0.0, 0.0, 150.0, 0.0) == 0.0
    ensures !SphereCapsuleCollisionAsWritten(140.0, 0.0, 50.0, 0.0, 0.0, 150.0, 0.0, 50.0)
    ensures SphereCapsuleCollision(140.0, 0.0, 50.0, 0.0, 0.0, 150.0, 0.0, 50.0)
  {
    assert FlippedProjection(140.0, 0.0, 0.0, 0.0, 150.0, 0.0) == -21000.0;
    assert SqDist(0.0, 0.0, 140.0, 0.0) == 19600.0;
    assert Projection(140.0, 0.0, 0.0, 0.0, 150.0, 0.0) == 21000.0;
    assert SqDist(150.0, 0.0, 0.0, 0.0) == 22500.0;
    assert SqDist(140.0, 0.0, 0.0, 0.0) == 19600.0;
  }
}

=== FILE: crescent_moon.dfy ===
/** The crescent-moon enemy (enemies/crescent_moon.rb): it steers toward a randomly drawn attack
    position under a goal-attraction force and a player-repulsion force, holds still for an
    attack phase of 180 ticks, and then looks for a new position. */
module CrescentMoon {
  import opened Geometry
  import opened Options
  import opened Entity

  /** The cap of the goal-attraction strength (`GOAL_ATTRACTION_FORCE`). */
  const GoalForce: int := 10
  const GoalReach: real := 500.0
  /** The cap of the player-repulsion strength (`PLAYER_REPULSION_FORCE`). */
  const RepulsionForce: int := 9
  const RepulsionReach: real := 500.0
  /** The speed the steering velocity is rescaled to every frame. */
  const Speed: real := 12.0
  /** A moon closer than this to its attack position has arrived. */
  const ArrivalDistance: real := 50.0
  /** The attack phase ends on this tick. */
  const AttackDuration: nat := 180

  datatype MoonState =
    | MoveIntoAttackPosition(attackPosition: Option<Vec>)
    | Attack(ticks: nat)
    | Dead(ticks: nat)

  /** The fields of the moon the simulation reads; `face_angle` stays 0 and nothing reads it. */
  datatype Moon = Moon(body: Body, state: MoonState)

  /** The two `rand` draws of an attack position: `rand(3000)` and `rand(1600)`. */
  datatype Dice = Dice(attackX: int, attackY: int)

  predicate ValidDice(dice: Dice) {
    0 <= dice.attackX < 3000 && 0 <= dice.attackY < 1600
  }

  /** The region attack positions are drawn from. */
  predicate InAttackBox(p: Vec) {
    100.0 <= p.x <= 3099.0 && 100.0 <= p.y <= 1699.0
  }

  function DrawAttackPosition(dice: Dice): (p: Vec)
    requires ValidDice(dice)
    ensures InAttackBox(p)
  {
    Vec((dice.attackX + 100) as real, (dice.attackY + 100) as real)
  }

  /** The invariant every moon keeps: radius 50, attack ticks below 180, a stored attack
      position inside the drawing region. */
  predicate Valid(m: Moon) {
    && m.body.collisionRadius == 50.0
    && (m.state.Attack? ==> m.state.ticks < AttackDuration)
    && (m.state.MoveIntoAttackPosition? && m.state.attackPosition.Some? ==>
          InAttackBox(m.state.attackPosition.value))
  }

  /** `build`: at rest at (x, y), looking for an attack position it has not drawn yet. */
  function Build(x: real, y: real): (m: Moon)
    ensures Valid(m)
    ensures Position(m.body) == Vec(x, y) && !Moving(m.body)
    ensures m.state == MoveIntoAttackPosition(None)
  {
    Moon(Body(x, y, 0.0, 0.0, 50.0), MoveIntoAttackPosition(None))
  }

  /** The host distance is the true Euclidean distance between `a` and `b`. */
  predicate AccurateDistance(num: Numerics, a: Vec, b: Vec) {
    IsSqrtOf(Distance(num, a, b), SqNorm(Sub(a, b)))
  }

  /** The goal-attraction strength at distance `d`: Ruby's integer `10 / 4` = 2 beyond the reach,
      inversely proportional to `d` inside it, capped at 10. */
  function GoalAttractionStrength(d: real): (s: real)
    requires d != 0.0
    ensures d > 0.0 ==> 2.0 <= s <= 10.0
    ensures d >= GoalReach ==> s == 2.0
    ensures 0.0 < d <= 100.0 ==> s == 10.0
    ensures 100.0 <= d < GoalReach ==> s * d == 1000.0
  {
    var base := (GoalForce / 4) as real;
    if d < GoalReach then
      var relative := d / GoalReach;
      var s := base / relative;
      InverseLaw(base, d, GoalReach, s);
      if s > GoalForce as real then GoalForce as real else s
    else base
  }

  /** The player-repulsion strength at distance `d` within the reach: Ruby's integer `9 / 4` = 2
      divided by the relative distance, capped at 9. */
  function PlayerRepulsionStrength(d: real): (s: real)
    requires d != 0.0 && d <= RepulsionReach
    ensures d > 0.0 ==> 2.0 <= s <= 9.0
    ensures 0.0 < d <= 1000.0 / 9.0 ==> s == 9.0
    ensures 1000.0 / 9.0 <= d ==> s * d == 1000.0
  {
    var base := (RepulsionForce / 4) as real;
    var relative := d / RepulsionReach;
    var s := base / relative;
    InverseLaw(base, d, RepulsionReach, s);
    if s > RepulsionForce as real then RepulsionForce as real else s
  }

  /** `base / (d / reach)` times `d` is `base * reach`. */
  lemma InverseLaw(base: real, d: real, reach: real, s: real)
    requires d != 0.0 && reach > 0.0 && s == base / (d / reach)
    ensures s * d == base * reach
  {
    var relative := d / reach;
    assert relative * reach == d;
    assert s * relative == base;
    assert s * d == s * (relative * reach) == (s * relative) * reach;
  }

  /** The goal attraction weakens (or stays the same) as the moon gets farther away. */
  lemma GoalAttractionStrengthAntitone(d1: real, d2: real)
    requires 0.0 < d1 <= d2
    ensures GoalAttractionStrength(d1) >= GoalAttractionStrength(d2)
  {
    if 100.0 <= d1 && d2 < GoalReach {
      InverseOrder(d1, d2, GoalAttractionStrength(d1), GoalAttractionStrength(d2));
    }
  }

  /** The player repulsion weakens (or stays the same) as the player gets farther away. */
  lemma PlayerRepulsionStrengthAntitone(d1: real, d2: real)
    requires 0.0 < d1 <= d2 <= RepulsionReach
    ensures PlayerRepulsionStrength(d1) >= PlayerRepulsionStrength(d2)
  {
    if 1000.0 / 9.0 <= d1 {
      InverseOrder(d1, d2, PlayerRepulsionStrength(d1), PlayerRepulsionStrength(d2));
    }
  }

  /** Two points on the hyperbola `s * d == 1000`: the nearer one has the larger `s`. */
  lemma InverseOrder(d1: real, d2: real, s1: real, s2: real)
    requires 0.0 < d1 <= d2 && s1 * d1 == 1000.0 && s2 * d2 == 1000.0
    ensures s1 >= s2
  {
    assert s1 == 1000.0 / d1 && s2 == 1000.0 / d2;
    DivAntitone(1000.0, d1, d2);
  }

  /** `goal_attraction_force`: zero at distance 0; otherwise a force of the attraction strength
      pointing from `position` toward `goal`. */
  function GoalAttraction(num: Numerics, goal: Vec, position: Vec): (f: Vec)
    ensures Distance(num, goal, position) == 0.0 ==> f == Vec(0.0, 0.0)
    ensures AccurateDistance(num, goal, position) && Distance(num, goal, position) != 0.0 ==>
      var s := GoalAttractionStrength(Distance(num, goal, position));
      && SqNorm(f) == s * s
      && 4.0 <= SqNorm(f) <= 100.0
      && Dot(f, Sub(goal, position)) == s * Distance(num, goal, position)
      && f.x * Sub(goal, position).y == f.y * Sub(goal, position).x
      && Dot(f, Sub(goal, position)) > 0.0
  {
    var d := Distance(num, goal, position);
    if d == 0.0 then Vec(0.0, 0.0)
    else
      var s := GoalAttractionStrength(d);
      var dx, dy := goal.x - position.x, goal.y - position.y;
      ScaledToLengthIfExact(s, d, dx, dy);
      if d > 0.0 then
        ProductPositive(s, d);
        SquareBounds(s, 2.0, 10.0);
        Vec((s * dx) / d, (s * dy) / d)
      else
        Vec((s * dx) / d, (s * dy) / d)
  }

  /** `player_repulsion_force`: zero beyond the reach; (9, 0) when the player sits exactly on the
      moon; otherwise a force of the repulsion strength pointing from the player toward the moon. */
  function PlayerRepulsion(num: Numerics, player: Vec, position: Vec): (f: Vec)
    ensures Distance(num, player, position) > RepulsionReach ==> f == Vec(0.0, 0.0)
    ensures Distance(num, player, position) == 0.0 ==> f == Vec(RepulsionForce as real, 0.0)
    ensures AccurateDistance(num, player, position) && 0.0 < Distance(num, player, position) <= RepulsionReach ==>
      var s := PlayerRepulsionStrength(Distance(num, player, position));
      && SqNorm(f) == s * s
      && 4.0 <= SqNorm(f) <= 81.0
      && Dot(f, Sub(player, position)) == -s * Distance(num, player, position)
      && f.x * Sub(player, position).y == f.y * Sub(player, position).x
      && Dot(f, Sub(player, position)) < 0.0
  {
    var d := Distance(num, player, position);
    if d > RepulsionReach then Vec(0.0, 0.0)
    else if d == 0.0 then Vec(RepulsionForce as real, 0.0)
    else
      var s := PlayerRepulsionStrength(d);
      var dx, dy := player.x - position.x, player.y - position.y;
      ScaledToLengthIfExact(-s, d, dx, dy);
      if d > 0.0 then
        ProductPositive(s, d);
        SquareBounds(s, 2.0, 9.0);
        assert (-s) * (-s) == s * s;
        Vec(((-s) * dx) / d, ((-s) * dy) / d)
      else
        Vec(((-s) * dx) / d, ((-s) * dy) / d)
  }

  /** `Math.sqrt(v_x * v_x + v_y * v_y)`: the host length of a velocity. */
  function HostLength(num: Numerics, v: Vec): real {
    num.sqrt(v.x * v.x + v.y * v.y)
  }

  /** `v * speed / velocity` on each axis: the velocity rescaled to `speed` by its host length.
      When that length is exactly zero Ruby produces NaN components; the model keeps the zero
      vector. */
  function Rescale(num: Numerics, v: Vec, speed: real): (r: Vec)
    ensures HostLength(num, v) == 0.0 ==> r == v
  {
    var length := HostLength(num, v);
    if length == 0.0 then v
    else Vec((v.x * speed) / length, (v.y * speed) / length)
  }

  /** With an exact host length, a nonzero vector is rescaled to length `speed` along itself:
      parallel to it and, for a positive speed, pointing the same way. */
  lemma RescaleToSpeed(num: Numerics, v: Vec, speed: real)
    requires IsSqrtOf(HostLength(num, v), SqNorm(v)) && HostLength(num, v) != 0.0
    ensures SqNorm(Rescale(num, v, speed)) == speed * speed
    ensures Rescale(num, v, speed).x * v.y == Rescale(num, v, speed).y * v.x
    ensures speed > 0.0 ==> Dot(Rescale(num, v, speed), v) > 0.0
  {
    SqNormNonnegative(v);
    RescaledFacts(speed, HostLength(num, v), v);
  }

  /** The arithmetic of `RescaleToSpeed` over plain numbers. */
  lemma RescaledFacts(s: real, l: real, v: Vec)
    requires l > 0.0 && l * l == SqNorm(v)
    ensures SqNorm(Vec((v.x * s) / l, (v.y * s) / l)) == s * s
    ensures ((v.x * s) / l) * v.y == ((v.y * s) / l) * v.x
    ensures s > 0.0 ==> Dot(Vec((v.x * s) / l, (v.y * s) / l), v) > 0.0
  {
    assert v.x * s == s * v.x && v.y * s == s * v.y;
    assert Vec((v.x * s) / l, (v.y * s) / l) == Vec((s * v.x) / l, (s * v.y) / l);
    assert v == Vec(v.x, v.y);
    ScaledToLength(s, l, v.x, v.y);
  }

  /** The velocity the steering step rescales: the current velocity plus both forces. */
  function SteeringSum(num: Numerics, player: Vec, target: Vec, b: Body): Vec {
    var position := Position(b);
    Add(Velocity(b), Add(GoalAttraction(num, target, position), PlayerRepulsion(num, player, position)))
  }

  /** `handle_move_into_attack_position`. The attack position is drawn only when none is stored.
      Within 50 of it the moon stops and switches to a fresh attack state; otherwise it adds both
      forces to its velocity and rescales the result to speed 12. */
  function HandleMoveIntoAttackPosition(num: Numerics, dice: Dice, player: Vec, m: Moon): (r: Moon)
    requires m.state.MoveIntoAttackPosition? && ValidDice(dice)
    ensures Position(r.body) == Position(m.body) && r.body.collisionRadius == m.body.collisionRadius
    ensures var target := m.state.attackPosition.GetOr(DrawAttackPosition(dice));
      && (m.state.attackPosition.None? ==> InAttackBox(target))
      && (Distance(num, Position(m.body), target) < ArrivalDistance <==> r.state == Attack(0))
      && (r.state == Attack(0) ==> !Moving(r.body))
      && (r.state != Attack(0) ==> r.state == MoveIntoAttackPosition(Some(target)))
    ensures r.state != Attack(0) ==>
      var target := m.state.attackPosition.GetOr(DrawAttackPosition(dice));
      Velocity(r.body) == Rescale(num, SteeringSum(num, player, target, m.body), Speed)
  {
    var target := m.state.attackPosition.GetOr(DrawAttackPosition(dice));
    if Distance(num, Position(m.body), target) < ArrivalDistance then
      Moon(WithVelocity(m.body, Vec(0.0, 0.0)), Attack(0))
    else
      var sum := SteeringSum(num, player, target, m.body);
      var v := Rescale(num, sum, Speed);
      assert Velocity(WithVelocity(m.body, v)) == v;
      Moon(WithVelocity(m.body, v), MoveIntoAttackPosition(Some(target)))
  }

  /** Away from its attack position, with an exact host length of a nonzero steering sum, the
      moon leaves the frame moving at speed 12 in the direction of that sum. */
  lemma SteeringMovesAtSpeed(num: Numerics, dice: Dice, player: Vec, m: Moon)
    requires m.state.MoveIntoAttackPosition? && ValidDice(dice)
    requires var target := m.state.attackPosition.GetOr(DrawAttackPosition(dice));
      var sum := SteeringSum(num, player, target, m.body);
      && Distance(num, Position(m.body), target) >= ArrivalDistance
      && IsSqrtOf(HostLength(num, sum), SqNorm(sum)) && HostLength(num, sum) != 0.0
    ensures var r := HandleMoveIntoAttackPosition(num, dice, player, m);
      var sum := SteeringSum(num, player, m.state.attackPosition.GetOr(DrawAttackPosition(dice)), m.body);
      && SqNorm(Velocity(r.body)) == Speed * Speed
      && Moving(r.body)
      && Dot(Velocity(r.body), sum) > 0.0
  {
    var target := m.state.attackPosition.GetOr(DrawAttackPosition(dice));
    var sum := SteeringSum(num, player, target, m.body);
    RescaleToSpeed(num, sum, Speed);
  }

  /** `handle_attack`: one more attack tick; on tick 180 the moon goes back to looking for a
      fresh attack position. Tick 120 only prints. */
  function HandleAttack(m: Moon): (r: Moon)
    requires m.state.Attack?
    ensures r.body == m.body
    ensures m.state.ticks + 1 < AttackDuration ==> r.state == Attack(m.state.ticks + 1)
    ensures m.state.ticks + 1 == AttackDuration ==> r.state == MoveIntoAttackPosition(None)
    ensures m.state.ticks < AttackDuration ==> Valid(r) == Valid(m)
  {
    var ticks := m.state.ticks + 1;
    if ticks == AttackDuration then m.(state := MoveIntoAttackPosition(None))
    else m.(state := Attack(ticks))
  }

  /** `tick`: dispatch on the state type. Dead moons are never ticked. */
  function Tick(num: Numerics, dice: Dice, player: Vec, m: Moon): (r: Moon)
    requires !m.state.Dead? && ValidDice(dice)
    ensures Valid(m) ==> Valid(r)
    ensures Position(r.body) == Position(m.body)
    ensures !r.state.Dead?
  {
    match m.state
    case MoveIntoAttackPosition(_) => HandleMoveIntoAttackPosition(num, dice, player, m)
    case Attack(_) => HandleAttack(m)
  }

  /** `n` attack ticks in a row, stopping early once the attack phase is over. */
  function RunAttack(m: Moon, n: nat): Moon
    requires m.state.Attack?
    decreases n
  {
    if n == 0 then m
    else
      var next := HandleAttack(m);
      if next.state.Attack? then RunAttack(next, n - 1) else next
  }

  /** Attack ticks count up one per frame while they stay below 180. */
  lemma {:induction false} AttackCountsUp(m: Moon, n: nat)
    requires m.state.Attack? && m.state.ticks + n < AttackDuration
    ensures RunAttack(m, n) == m.(state := Attack(m.state.ticks + n))
    decreases n
  {
    if n > 0 {
      AttackCountsUp(HandleAttack(m), n - 1);
    }
  }

  /** A fresh attack state lasts exactly 180 ticks: after 179 ticks the moon is still attacking
      (at tick 179), and the 180th returns it to a fresh move-into-attack-position state. */
  lemma AttackLasts180Ticks(m: Moon)
    requires m.state == Attack(0)
    ensures forall n :: 0 <= n < AttackDuration ==> RunAttack(m, n).state == Attack(n)
    ensures RunAttack(m, AttackDuration) == m.(state := MoveIntoAttackPosition(None))
  {
    forall n | 0 <= n < AttackDuration
      ensures RunAttack(m, n).state == Attack(n)
    {
      AttackCountsUp(m, n);
    }
    AttackCountsUp(m, AttackDuration - 1);
    RunAttackSplit(m, AttackDuration - 1);
  }

  /** One more step at the end of a run that is still attacking. */
  lemma {:induction false} RunAttackSplit(m: Moon, n: nat)
    requires m.state.Attack? && RunAttack(m, n).state.Attack?
    ensures RunAttack(m, n + 1) == HandleAttack(RunAttack(m, n))
    decreases n
  {
    if n > 0 {
      var next := HandleAttack(m);
      assert next.state.Attack?;
      RunAttackSplit(next, n - 1);
    }
  }
}

=== FILE: entity.dfy ===
/** The attribute schema shared by the player, enemies and projectiles, and the small
    predicates main.rb defines over it. */
module Entity {
  import opened Geometry
  import opened Seqs
  import Collision

  /** Position, per-frame velocity and collision radius: the fields every entity carries. */
  datatype Body = Body(x: real, y: real, vx: real, vy: real, collisionRadius: real)

  /** `args.state.game_state`. */
  datatype GameState = Playing | Won | Lost

  /** The terminal outcomes main.rb tests before ticking anything but the player. */
  predicate GameOver(gs: GameState) {
    gs == Won || gs == Lost
  }

  function Position(b: Body): Vec { Vec(b.x, b.y) }

  function Velocity(b: Body): Vec { Vec(b.vx, b.vy) }

  function WithVelocity(b: Body, v: Vec): Body { b.(vx := v.x, vy := v.y) }

  /** The position-integration step of `update`: one frame of velocity added to the position. */
  function Integrate(b: Body): Body {
    b.(x := b.x + b.vx, y := b.y + b.vy)
  }

  /** `moving?` */
  predicate Moving(b: Body) {
    b.vx != 0.0 || b.vy != 0.0
  }

  /** `moving_diagonally?` */
  predicate MovingDiagonally(b: Body) {
    b.vx != 0.0 && b.vy != 0.0
  }

  /** An entity is moving exactly when the integration pass would displace it, and moving
      diagonally exactly when it would displace it along both axes. */
  lemma MovingIffIntegrationDisplaces(b: Body)
    ensures Moving(b) <==> Position(Integrate(b)) != Position(b)
    ensures MovingDiagonally(b) <==> Integrate(b).x != b.x && Integrate(b).y != b.y
    ensures MovingDiagonally(b) ==> Moving(b)
  {
  }

  /** A rectangle given by its lower-left corner and size (`rect[:x]`, `rect[:w]`, ...). */
  datatype Rect = Rect(x: real, y: real, w: real, h: real)

  /** `point_inside_rect?`: inclusive on both ends, `x .. x + w - 1`. */
  predicate PointInsideRect(p: Vec, r: Rect) {
    r.x <= p.x <= r.x + r.w - 1.0 && r.y <= p.y <= r.y + r.h - 1.0
  }

  /** `on_screen?`: the inclusive world box [0, 3199] x [0, 1799]. */
  predicate OnScreen(p: Vec) {
    0.0 <= p.x <= 3199.0 && 0.0 <= p.y <= 1799.0
  }

  /** The world rectangle, 3200 by 1800 units from the origin. */
  const World: Rect := Rect(0.0, 0.0, 3200.0, 1800.0)

  /** Being on screen is being inside the 3200 x 1800 world rectangle. */
  lemma OnScreenIsInsideWorld(p: Vec)
    ensures OnScreen(p) <==> PointInsideRect(p, World)
  {
  }

  /** The swept test of `moving_entity_collisions`: the target's sphere against the capsule
      from the entity's position to its position one frame of velocity later. */
  predicate SweptHit(entity: Body, target: Body) {
    Collision.SphereCapsuleCollision(
      target.x, target.y, target.collisionRadius,
      entity.x, entity.y, entity.x + entity.vx, entity.y + entity.vy, entity.collisionRadius)
  }

  /** The same sweep with the point-to-segment routine as written (see README, Findings). */
  predicate SweptHitAsWritten(entity: Body, target: Body) {
    Collision.SphereCapsuleCollisionAsWritten(
      target.x, target.y, target.collisionRadius,
      entity.x, entity.y, entity.x + entity.vx, entity.y + entity.vy, entity.collisionRadius)
  }

  /** What the sign error does to a rush: a radius-50 body sweeping from (0, 0) to (150, 0)
      truly touches a radius-50 target at (140, 0) and not one at (-140, 0); as written it is
      the other way round. */
  lemma SweepsDisagree()
    ensures var entity := Body(0.0, 0.0, 150.0, 0.0, 50.0);
      && SweptHit(entity, Body(140.0, 0.0, 0.0, 0.0, 50.0))
      && !SweptHitAsWritten(entity, Body(140.0, 0.0, 0.0, 0.0, 50.0))
      && !SweptHit(entity, Body(-140.0, 0.0, 0.0, 0.0, 50.0))
      && SweptHitAsWritten(entity, Body(-140.0, 0.0, 0.0, 0.0, 50.0))
  {
    Collision.AsWrittenMissesPointAhead();
    Collision.AsWrittenHitsBehindFirstEndpoint();
  }

  /** `moving_entity_collisions`: the targets the entity's one-frame sweep touches, in order. */
  function MovingEntityCollisions(entity: Body, targets: seq<Body>): (r: seq<Body>)
    ensures SubsequenceOf(r, targets)
    ensures forall i :: 0 <= i < |r| ==> SweptHit(entity, r[i]) && r[i] in targets
    ensures forall i :: 0 <= i < |targets| && SweptHit(entity, targets[i]) ==> targets[i] in r
    ensures forall i :: 0 <= i < |targets| ==>
      multiset(r)[targets[i]] == if SweptHit(entity, targets[i]) then multiset(targets)[targets[i]] else 0
  {
    Filter(t => SweptHit(entity, t), targets)
  }

  /** For an entity at rest the capsule collapses to a point: the sweep is a plain
      centre-distance test. */
  lemma StationarySweepIsPointTest(entity: Body, target: Body)
    requires !Moving(entity)
    ensures SweptHit(entity, target) <==>
      Collision.SqDist(target.x, target.y, entity.x, entity.y)
        <= (target.collisionRadius + entity.collisionRadius) * (target.collisionRadius + entity.collisionRadius)
  {
    assert entity.x + entity.vx == entity.x && entity.y + entity.vy == entity.y;
  }

  /** A target sitting at either end of the sweep is always hit (radii nonnegative); one at the
      start is hit by the as-written sweep too. */
  lemma SweepHitsBothEnds(entity: Body, target: Body)
    requires entity.collisionRadius >= 0.0 && target.collisionRadius >= 0.0
    requires Position(target) == Position(entity) || Position(target) == Position(Integrate(entity))
    ensures SweptHit(entity, target)
    ensures Position(target) == Position(entity) ==> SweptHitAsWritten(entity, target)
  {
    if Position(target) == Position(entity) {
      Collision.SphereOnFirstEndpointCollides(entity.x, entity.y, target.collisionRadius,
        entity.x + entity.vx, entity.y + entity.vy, entity.collisionRadius);
    } else {
      Collision.SphereOnSecondEndpointCollides(entity.x + entity.vx, entity.y + entity.vy,
        target.collisionRadius, entity.x, entity.y, entity.collisionRadius);
    }
  }
}

=== FILE: game.dfy ===
/** One frame of the simulation (main.rb `update`): pause handling, the player's tick, the early
    exit after game over, the enemies' and projectiles' ticks, hit intake, and the position
    integration of every moving entity. */
module Game {
  import opened Geometry
  import opened Options
  import opened Seqs
  import opened Entity
  import CrescentMoon
  import Player

  /** A projectile: its body and whether it is still in play. */
  datatype Projectile = Projectile(body: Body, alive: bool)

  /** What one projectile tick yields: the projectile afterwards and the hits it queues on the
      player. */
  datatype ProjectileStep = ProjectileStep(projectile: Projectile, hits: seq<Player.Hit>)

  /** What the frame takes from outside: the host math, one attack-position draw per enemy, and
      the projectile kinds' own tick (given the player's body). */
  datatype Env = Env(
    num: Numerics,
    dice: seq<CrescentMoon.Dice>,
    projectileTick: (Projectile, Body) -> ProjectileStep)

  /** `args.state`: the pause flag, the game state, the player, the enemy list (the moving
      entities besides the player) and the projectiles. */
  datatype World = World(
    paused: bool,
    gameState: GameState,
    player: Player.Player,
    enemies: seq<CrescentMoon.Moon>,
    projectiles: seq<Projectile>)

  /** One valid draw for every enemy. */
  predicate ValidEnv(env: Env, w: World) {
    && |env.dice| == |w.enemies|
    && forall i :: 0 <= i < |env.dice| ==> CrescentMoon.ValidDice(env.dice[i])
  }

  /** Every entity keeps its invariant. */
  predicate Valid(w: World) {
    && Player.Valid(w.player)
    && forall i :: 0 <= i < |w.enemies| ==> CrescentMoon.Valid(w.enemies[i])
  }

  /** `setup`: the player at (1600, 900), one crescent moon at (2000, 1000), playing, unpaused,
      no projectiles. */
  function Setup(): (w: World)
    ensures Valid(w) && !w.paused && w.gameState == Playing
    ensures |w.enemies| == 1 && w.enemies[0].state == CrescentMoon.MoveIntoAttackPosition(None)
    ensures Position(w.player.body) == Vec(1600.0, 900.0) && Position(w.enemies[0].body) == Vec(2000.0, 1000.0)
    ensures w.projectiles == [] && !Player.AllDead(w.enemies)
  {
    World(false, Playing, Player.Build(1600.0, 900.0), [CrescentMoon.Build(2000.0, 1000.0)], [])
  }

  /** The enemy loop: dead enemies are skipped, living ones tick with the player's position. */
  function TickEnemies(num: Numerics, dice: seq<CrescentMoon.Dice>, player: Vec, enemies: seq<CrescentMoon.Moon>)
    : (r: seq<CrescentMoon.Moon>)
    requires |dice| == |enemies| && forall i :: 0 <= i < |dice| ==> CrescentMoon.ValidDice(dice[i])
    ensures |r| == |enemies|
    ensures forall i :: 0 <= i < |enemies| ==>
      && (enemies[i].state.Dead? ==> r[i] == enemies[i])
      && (!enemies[i].state.Dead? ==> r[i] == CrescentMoon.Tick(num, dice[i], player, enemies[i]) && !r[i].state.Dead?)
      && Position(r[i].body) == Position(enemies[i].body)
      && (CrescentMoon.Valid(enemies[i]) ==> CrescentMoon.Valid(r[i]))
  {
    seq(|enemies|, i requires 0 <= i < |enemies| =>
      if enemies[i].state.Dead? then enemies[i] else CrescentMoon.Tick(num, dice[i], player, enemies[i]))
  }

  /** The projectiles after their ticks, and the hits they queued, in projectile order. */
  datatype Volley = Volley(projectiles: seq<Projectile>, hits: seq<Player.Hit>)

  /** The hits each projectile's tick queues, in projectile order. */
  function QueuedHits(step: (Projectile, Body) -> ProjectileStep, player: Body, ps: seq<Projectile>)
    : seq<seq<Player.Hit>>
  {
    seq(|ps|, i requires 0 <= i < |ps| => step(ps[i], player).hits)
  }

  /** The projectile loop: every projectile ticks once, and the hits the ticks queue join the
      queue in projectile order. */
  function TickProjectiles(step: (Projectile, Body) -> ProjectileStep, player: Body, ps: seq<Projectile>)
    : (r: Volley)
    ensures |r.projectiles| == |ps|
    ensures forall i :: 0 <= i < |ps| ==> r.projectiles[i] == step(ps[i], player).projectile
    ensures r.hits == Flatten(QueuedHits(step, player, ps))
    ensures (forall i :: 0 <= i < |ps| ==> step(ps[i], player).hits == []) ==> r.hits == []
    decreases |ps|
  {
    if |ps| == 0 then Volley([], [])
    else
      var first := step(ps[0], player);
      var rest := TickProjectiles(step, player, ps[1..]);
      assert forall i :: 1 <= i < |ps| ==> ps[i] == ps[1..][i - 1];
      assert QueuedHits(step, player, ps)[1..] == QueuedHits(step, player, ps[1..]);
      Volley([first.projectile] + rest.projectiles, first.hits + rest.hits)
  }

  function IntegrateMoons(enemies: seq<CrescentMoon.Moon>): (r: seq<CrescentMoon.Moon>)
    ensures |r| == |enemies|
    ensures forall i :: 0 <= i < |enemies| ==> r[i].state == enemies[i].state && Velocity(r[i].body) == Velocity(enemies[i].body)
    ensures forall i :: 0 <= i < |enemies| ==>
      Position(r[i].body) == Add(Position(enemies[i].body), Velocity(enemies[i].body))
    ensures forall i :: 0 <= i < |enemies| ==> r[i].body.collisionRadius == enemies[i].body.collisionRadius
  {
    seq(|enemies|, i requires 0 <= i < |enemies| => enemies[i].(body := Integrate(enemies[i].body)))
  }

  /** What `select!` keeps. */
  predicate Live(p: Projectile) { p.alive }

  /** A projectile after the integration pass. */
  function Moved(p: Projectile): Projectile {
    p.(body := Integrate(p.body))
  }

  function IntegrateProjectiles(ps: seq<Projectile>): (r: seq<Projectile>)
    ensures |r| == |ps|
    ensures forall i :: 0 <= i < |ps| ==> r[i] == Moved(ps[i])
    ensures forall i :: 0 <= i < |ps| ==> r[i].alive == ps[i].alive
    ensures forall i :: 0 <= i < |ps| ==>
      Position(r[i].body) == Add(Position(ps[i].body), Velocity(ps[i].body))
  {
    seq(|ps|, i requires 0 <= i < |ps| => Moved(ps[i]))
  }

  /** The player's tick, the first thing an unpaused frame does. */
  function PlayerPhase(env: Env, input: Player.Input, w: World): Player.TickResult {
    Player.Tick(env.num, input, w.gameState, w.player, w.enemies)
  }

  /** `update`. The pause key flips the pause flag and a paused frame changes nothing else. An
      unpaused frame ticks the player; if the game is then over the frame stops there, before
      any integration. Otherwise the living enemies tick, the projectiles tick and the dead ones
      are dropped, the queued hits are taken in, and every entity moves by its velocity once. */
  function Update(env: Env, input: Player.Input, tick: int, w: World): (r: World)
    requires ValidEnv(env, w)
    ensures r.paused == (w.paused != input.pause)
    ensures r.paused ==> r == w.(paused := true)
    ensures |r.enemies| == |w.enemies| && |r.projectiles| <= |w.projectiles|
  {
    var paused := if input.pause then !w.paused else w.paused;
    if paused then w.(paused := paused)
    else
      var t := PlayerPhase(env, input, w);
      if GameOver(t.gameState) then World(false, t.gameState, t.player, t.enemies, w.projectiles)
      else FinishFrame(env, tick, t, w.projectiles)
  }

  /** The rest of a frame once the player's tick left the game running: the living enemies
      tick, the projectiles tick and the dead ones are dropped, the queued hits are taken in, and
      every entity moves by its velocity once. */
  function FinishFrame(env: Env, tick: int, t: Player.TickResult, projectiles: seq<Projectile>): (r: World)
    requires |env.dice| == |t.enemies| && forall i :: 0 <= i < |env.dice| ==> CrescentMoon.ValidDice(env.dice[i])
    requires !GameOver(t.gameState)
    ensures !r.paused && |r.enemies| == |t.enemies| && |r.projectiles| <= |projectiles|
    ensures r.gameState == t.gameState || (r.gameState == Lost && r.player.hp == 0)
    ensures forall i :: 0 <= i < |t.enemies| ==> (t.enemies[i].state.Dead? <==> r.enemies[i].state.Dead?)
    ensures r.player.hits == []
    ensures t.player.hp >= 0 ==> 0 <= r.player.hp <= t.player.hp
    ensures forall i :: 0 <= i < |r.projectiles| ==> r.projectiles[i].alive
    ensures Position(r.player.body) == Add(Position(t.player.body), Velocity(r.player.body))
    ensures forall i :: 0 <= i < |t.enemies| ==>
      Position(r.enemies[i].body) == Add(Position(t.enemies[i].body), Velocity(r.enemies[i].body))
    ensures Player.Valid(t.player) && (forall i :: 0 <= i < |t.enemies| ==> CrescentMoon.Valid(t.enemies[i])) ==>
      Valid(r)
  {
    var volley := TickProjectiles(env.projectileTick, t.player.body, projectiles);
    var player := AdvancePlayer(tick, t.gameState, t.player, volley.hits);
    var enemies := AdvanceEnemies(env.num, env.dice, Position(t.player.body), t.enemies);
    World(false, player.gameState, player.player, enemies, AdvanceProjectiles(volley.projectiles))
  }

  /** The projectiles' part of a running frame after their ticks: `select!` drops the dead
      ones, then every remaining one moves. */
  function AdvanceProjectiles(ticked: seq<Projectile>): (r: seq<Projectile>)
    ensures |r| <= |ticked|
    ensures forall i :: 0 <= i < |r| ==> r[i].alive
  {
    IntegrateProjectiles(Filter(Live, ticked))
  }

  /** The enemies' part of a running frame: the living ones tick, then every enemy moves. */
  function AdvanceEnemies(num: Numerics, dice: seq<CrescentMoon.Dice>, player: Vec, enemies: seq<CrescentMoon.Moon>)
    : (r: seq<CrescentMoon.Moon>)
    requires |dice| == |enemies| && forall i :: 0 <= i < |dice| ==> CrescentMoon.ValidDice(dice[i])
    ensures |r| == |enemies|
    ensures forall i :: 0 <= i < |enemies| ==>
      var ticked := if enemies[i].state.Dead? then enemies[i] else CrescentMoon.Tick(num, dice[i], player, enemies[i]);
      r[i] == ticked.(body := Integrate(ticked.body))
    ensures forall i :: 0 <= i < |enemies| ==>
      && (enemies[i].state.Dead? <==> r[i].state.Dead?)
      && Position(r[i].body) == Add(Position(enemies[i].body), Velocity(r[i].body))
      && (CrescentMoon.Valid(enemies[i]) ==> CrescentMoon.Valid(r[i]))
  {
    var ticked := TickEnemies(num, dice, player, enemies);
    var moved := IntegrateMoons(ticked);
    assert forall i :: 0 <= i < |enemies| ==> Velocity(moved[i].body) == Velocity(ticked[i].body);
    moved
  }

  /** The player's part of a running frame: the projectiles' hits join the queue, the queue is
      taken in (the damage of the old queue and of this frame's hits, behind the cooldowns),
      and the player moves. */
  function AdvancePlayer(tick: int, gameState: GameState, p: Player.Player, hits: seq<Player.Hit>): (r: Player.HitsResult)
    requires !GameOver(gameState)
    ensures r.gameState == gameState || (r.gameState == Lost && r.player.hp == 0)
    ensures r.player.hits == []
    ensures p.hp >= 0 ==> 0 <= r.player.hp <= p.hp
    ensures var gap := tick - p.lastHitTick;
      var hp := p.hp - (Player.TotalDamage(p.hits) + Player.TotalDamage(hits));
      && (|p.hits| + |hits| == 0 || gap <= Player.DamageCooldown ==> r.player.hp == p.hp && r.gameState == gameState)
      && (|p.hits| + |hits| > 0 && gap > Player.DamageCooldown ==>
            r.player.hp == (if hp < 0 then 0 else hp) && (r.gameState == Lost <==> r.player.hp == 0))
      && r.player.lastHitTick == (if |p.hits| + |hits| > 0 && gap > Player.FlashCooldown then tick else p.lastHitTick)
    ensures r.player.state == p.state && r.player.faceAngle == p.faceAngle
    ensures r.player.body == Integrate(p.body)
    ensures Position(r.player.body) == Add(Position(p.body), Velocity(r.player.body))
    ensures Player.Valid(p) ==> Player.Valid(r.player)
  {
    var queued := p.(hits := p.hits + hits);
    var hit := Player.HandleHits(tick, gameState, queued);
    Player.TotalDamageAppend(p.hits, hits);
    Player.HandleHitsPreservesValid(tick, gameState, queued);
    assert Player.Valid(p) ==> Player.Valid(queued);
    Player.HitsResult(hit.player.(body := Integrate(hit.player.body)), hit.gameState)
  }

  /** Dead enemies stay dead. Only a rush that leaves every enemy dead wins, and only a fatal
      hit loses. */
  lemma UpdateOutcome(env: Env, input: Player.Input, tick: int, w: World)
    requires ValidEnv(env, w)
    ensures var r := Update(env, input, tick, w);
      && (forall i :: 0 <= i < |w.enemies| && w.enemies[i].state.Dead? ==> r.enemies[i].state.Dead?)
      && (r.gameState == Won && w.gameState != Won ==> Player.AllDead(r.enemies) && w.player.state.Rushing?)
      && (r.gameState == Lost && w.gameState != Lost ==> r.player.hp == 0)
      && (r.gameState == Playing ==> w.gameState == Playing)
  {
    var r := Update(env, input, tick, w);
    var t := PlayerPhase(env, input, w);
    if !r.paused && !GameOver(t.gameState) {
      assert r == FinishFrame(env, tick, t, w.projectiles);
    }
  }

  /** Once the player's tick leaves the game over, in the frame that ends the game (a winning
      rush) as in every later frame, only that tick happens: no enemy ticks or moves (a rush may
      only kill one), no hit is taken in, and the outcome changes only to won, by a rush under
      way. */
  lemma UpdateAfterGameOver(env: Env, input: Player.Input, tick: int, w: World)
    requires ValidEnv(env, w) && w.paused == input.pause
    requires GameOver(PlayerPhase(env, input, w).gameState)
    ensures var r := Update(env, input, tick, w);
      && (r.gameState == w.gameState || (r.gameState == Won && w.player.state.Rushing?))
      && r.projectiles == w.projectiles
      && r.player.hits == w.player.hits && r.player.hp == w.player.hp
      && Position(r.player.body) == Position(w.player.body)
      && (forall i :: 0 <= i < |w.enemies| ==> Position(r.enemies[i].body) == Position(w.enemies[i].body))
      && (forall i :: 0 <= i < |w.enemies| ==>
            r.enemies[i] == w.enemies[i] || r.enemies[i] == Player.Kill(w.enemies[i]))
  {
    var t := PlayerPhase(env, input, w);
    assert Update(env, input, tick, w) == World(false, t.gameState, t.player, t.enemies, w.projectiles);
  }

  /** A frame that runs to the end empties the hit queue, never raises hp, keeps only live
      projectiles and moves every entity by its final velocity exactly once. */
  lemma UpdateFullFrame(env: Env, input: Player.Input, tick: int, w: World)
    requires ValidEnv(env, w) && w.paused == input.pause
    requires !GameOver(PlayerPhase(env, input, w).gameState)
    ensures var r := Update(env, input, tick, w);
      && r.player.hits == []
      && (w.player.hp >= 0 ==> 0 <= r.player.hp <= w.player.hp)
      && (forall i :: 0 <= i < |r.projectiles| ==> r.projectiles[i].alive)
      && Position(r.player.body) == Add(Position(w.player.body), Velocity(r.player.body))
      && (forall i :: 0 <= i < |w.enemies| ==>
            Position(r.enemies[i].body) == Add(Position(w.enemies[i].body), Velocity(r.enemies[i].body)))
  {
    var r := Update(env, input, tick, w);
    var t := PlayerPhase(env, input, w);
    if !r.paused && !GameOver(t.gameState) {
      assert r == FinishFrame(env, tick, t, w.projectiles);
    }
  }

  /** In a frame that runs to the end, every enemy the player's tick left alive ticks once with
      its own draw and the player's position, then moves by its new velocity; a dead one only
      moves. */
  lemma UpdateTicksLivingEnemies(env: Env, input: Player.Input, tick: int, w: World)
    requires ValidEnv(env, w) && w.paused == input.pause
    requires !GameOver(PlayerPhase(env, input, w).gameState)
    ensures var r := Update(env, input, tick, w);
      var t := PlayerPhase(env, input, w);
      forall i :: 0 <= i < |w.enemies| ==>
        var ticked := if t.enemies[i].state.Dead? then t.enemies[i]
                      else CrescentMoon.Tick(env.num, env.dice[i], Position(w.player.body), t.enemies[i]);
        r.enemies[i] == ticked.(body := Integrate(ticked.body))
  {
    var t := PlayerPhase(env, input, w);
    assert Update(env, input, tick, w) == FinishFrame(env, tick, t, w.projectiles);
  }

  /** A frame that runs to the end keeps exactly the projectiles still alive after their
      ticks, each moved once by its velocity, in their order and with their multiplicities
      (`Seqs.Filter`). */
  lemma UpdateKeepsLiveProjectiles(env: Env, input: Player.Input, tick: int, w: World)
    requires ValidEnv(env, w) && w.paused == input.pause
    requires !GameOver(PlayerPhase(env, input, w).gameState)
    ensures var r := Update(env, input, tick, w);
      var ticked := TickProjectiles(env.projectileTick, PlayerPhase(env, input, w).player.body, w.projectiles).projectiles;
      && (forall i :: 0 <= i < |ticked| && ticked[i].alive ==> Moved(ticked[i]) in r.projectiles)
      && (forall q :: q in r.projectiles ==> exists i :: 0 <= i < |ticked| && ticked[i].alive && q == Moved(ticked[i]))
      && r.projectiles == IntegrateProjectiles(Filter(Live, ticked))
  {
    var t := PlayerPhase(env, input, w);
    assert Update(env, input, tick, w) == FinishFrame(env, tick, t, w.projectiles);
    var ticked := TickProjectiles(env.projectileTick, t.player.body, w.projectiles).projectiles;
    LiveProjectilesMoved(ticked);
  }

  /** A frame that runs to the end takes in the old hit queue together with the hits this
      frame's projectile ticks queue: past the damage cooldown hp drops by their summed damage,
      floored at 0; inside it, or with no hits at all, hp is unchanged. */
  lemma UpdateTakesInHits(env: Env, input: Player.Input, tick: int, w: World)
    requires ValidEnv(env, w) && w.paused == input.pause
    requires !GameOver(PlayerPhase(env, input, w).gameState)
    ensures var r := Update(env, input, tick, w);
      var hits := Flatten(QueuedHits(env.projectileTick, PlayerPhase(env, input, w).player.body, w.projectiles));
      var gap := tick - w.player.lastHitTick;
      var hp := w.player.hp - (Player.TotalDamage(w.player.hits) + Player.TotalDamage(hits));
      && (|w.player.hits| + |hits| > 0 && gap > Player.DamageCooldown ==> r.player.hp == (if hp < 0 then 0 else hp))
      && (|w.player.hits| + |hits| == 0 || gap <= Player.DamageCooldown ==> r.player.hp == w.player.hp)
  {
    var t := PlayerPhase(env, input, w);
    assert Update(env, input, tick, w) == FinishFrame(env, tick, t, w.projectiles);
  }

  /** Filtering out the dead and integrating keeps exactly the moved live projectiles. */
  lemma LiveProjectilesMoved(ticked: seq<Projectile>)
    ensures var r := IntegrateProjectiles(Filter(Live, ticked));
      && (forall i :: 0 <= i < |ticked| && ticked[i].alive ==> Moved(ticked[i]) in r)
      && (forall q :: q in r ==> exists i :: 0 <= i < |ticked| && ticked[i].alive && q == Moved(ticked[i]))
  {
    var kept := Filter(Live, ticked);
    assert forall i :: 0 <= i < |kept| ==> kept[i].alive && kept[i] in ticked;
    assert forall i :: 0 <= i < |ticked| && ticked[i].alive ==> ticked[i] in kept;
    EveryLiveIsMoved(ticked, kept);
    OnlyLiveAreMoved(ticked, kept);
  }

  lemma EveryLiveIsMoved(ticked: seq<Projectile>, kept: seq<Projectile>)
    requires forall i :: 0 <= i < |ticked| && ticked[i].alive ==> ticked[i] in kept
    ensures forall i :: 0 <= i < |ticked| && ticked[i].alive ==> Moved(ticked[i]) in IntegrateProjectiles(kept)
  {
    var r := IntegrateProjectiles(kept);
    forall i | 0 <= i < |ticked| && ticked[i].alive
      ensures Moved(ticked[i]) in r
    {
      var k :| 0 <= k < |kept| && kept[k] == ticked[i];
      assert r[k] == Moved(ticked[i]);
    }
  }

  lemma OnlyLiveAreMoved(ticked: seq<Projectile>, kept: seq<Projectile>)
    requires forall i :: 0 <= i < |kept| ==> kept[i].alive && kept[i] in ticked
    ensures forall q :: q in IntegrateProjectiles(kept) ==>
      exists i :: 0 <= i < |ticked| && ticked[i].alive && q == Moved(ticked[i])
  {
    var r := IntegrateProjectiles(kept);
    forall q | q in r
      ensures exists i :: 0 <= i < |ticked| && ticked[i].alive && q == Moved(ticked[i])
    {
      var k :| 0 <= k < |r| && r[k] == q;
      var i :| 0 <= i < |ticked| && ticked[i] == kept[k];
      assert q == Moved(ticked[i]);
    }
  }

  /** A frame keeps every entity's invariant. */
  lemma UpdatePreservesValid(env: Env, input: Player.Input, tick: int, w: World)
    requires ValidEnv(env, w) && Valid(w)
    ensures Valid(Update(env, input, tick, w))
  {
    var r := Update(env, input, tick, w);
    if !r.paused {
      var t := PlayerPhase(env, input, w);
      forall i | 0 <= i < |t.enemies|
        ensures CrescentMoon.Valid(t.enemies[i])
      {
        assert t.enemies[i] == w.enemies[i] || t.enemies[i] == Player.Kill(w.enemies[i]);
      }
      if !GameOver(t.gameState) {
        assert r == FinishFrame(env, tick, t, w.projectiles);
      }
    }
  }

  /** Frames in sequence, one per input, with the tick count advancing by one each frame. */
  function Run(env: Env, inputs: seq<Player.Input>, tick: int, w: World): World
    requires ValidEnv(env, w)
    decreases |inputs|
  {
    if |inputs| == 0 then w
    else
      var next := Update(env, inputs[0], tick, w);
      Run(env, inputs[1..], tick + 1, next)
  }

  /** Every frame of the run is unpaused and its player tick leaves the game running, so every
      frame runs to the end. */
  predicate FramesRunToEnd(env: Env, inputs: seq<Player.Input>, tick: int, w: World)
    requires ValidEnv(env, w)
    decreases |inputs|
  {
    |inputs| == 0 ||
    (&& w.paused == inputs[0].pause
     && !GameOver(PlayerPhase(env, inputs[0], w).gameState)
     && FramesRunToEnd(env, inputs[1..], tick + 1, Update(env, inputs[0], tick, w)))
  }

  /** A rush frame of the game is the player's own rush frame (`Player.RushFrame`) when it runs
      to the end. When the rush ends the game instead, the frame stops before integration, so
      the player stays where it was. */
  lemma UpdateRushFrame(env: Env, input: Player.Input, tick: int, w: World)
    requires ValidEnv(env, w) && w.paused == input.pause && w.player.state.Rushing?
    ensures var r := Update(env, input, tick, w);
      var f := Player.RushFrame(env.num, w.player);
      && r.player.state == f.state && r.player.faceAngle == f.faceAngle
      && (!GameOver(PlayerPhase(env, input, w).gameState) ==> r.player.body == f.body)
      && (GameOver(PlayerPhase(env, input, w).gameState) ==> Position(r.player.body) == Position(w.player.body))
  {
    var t := PlayerPhase(env, input, w);
    assert t == Player.HandleRushing(env.num, w.gameState, w.player, w.enemies);
    if !GameOver(t.gameState) {
      assert Update(env, input, tick, w) == FinishFrame(env, tick, t, w.projectiles);
    }
  }

  /** When every frame runs to the end, a rush of positive power lasts `Player.RushFrames`
      frames, ends in movement, and moves the player by exactly the displacement the charge
      predicted, as the player-only `Player.RunRush` does. */
  lemma {:induction false} RushRunsAsPredicted(env: Env, inputs: seq<Player.Input>, tick: int, w: World)
    requires ValidEnv(env, w) && w.player.state.Rushing? && w.player.state.power > 0
    requires |inputs| == Player.RushFrames(w.player.state.power)
    requires FramesRunToEnd(env, inputs, tick, w)
    ensures var r := Run(env, inputs, tick, w);
      && r.player.state == Player.Movement
      && Position(r.player.body) == Add(Position(w.player.body),
           Player.SimulatedDisplacement(env.num, w.player.faceAngle, w.player.state.power, Velocity(w.player.body)))
      && Position(r.player.body) == Position(Player.RunRush(env.num, w.player).body)
    decreases |inputs|
  {
    var num, p := env.num, w.player;
    var next := Update(env, inputs[0], tick, w);
    assert Run(env, inputs, tick, w) == Run(env, inputs[1..], tick + 1, next);
    UpdateRushFrame(env, inputs[0], tick, w);
    Player.RushFollowsPrediction(num, p);
    var power := Player.DrainedPower(p.state.power);
    var velocity := if power == 0 then Velocity(p.body) else Player.RushVelocity(num, p.faceAngle, power);
    assert Velocity(Player.ExecuteRush(num, p).body) == velocity;
    assert Position(next.player.body) == Add(Position(p.body), velocity);
    if power > 0 {
      assert next.player.state == Player.Rushing(power) && next.player.faceAngle == p.faceAngle;
      assert Velocity(next.player.body) == velocity;
      RushRunsAsPredicted(env, inputs[1..], tick + 1, next);
      Player.SimulatedStep(num, p.faceAngle, p.state.power, Velocity(p.body));
      AddAssociative(Position(p.body), velocity, Player.SimulatedDisplacement(num, p.faceAngle, power, velocity));
    } else {
      assert inputs[1..] == [];
      Player.SimulatedLastStep(num, p.faceAngle, p.state.power, Velocity(p.body));
    }
  }

  lemma AddAssociative(a: Vec, b: Vec, c: Vec)
    ensures Add(Add(a, b), c) == Add(a, Add(b, c))
  {
  }

  /** A paused game stays exactly as it is for as long as the pause key is not pressed. */
  lemma {:induction false} PausedWorldStaysFrozen(env: Env, inputs: seq<Player.Input>, tick: int, w: World)
    requires ValidEnv(env, w) && w.paused
    requires forall i :: 0 <= i < |inputs| ==> !inputs[i].pause
    ensures Run(env, inputs, tick, w) == w
    decreases |inputs|
  {
    if |inputs| > 0 {
      assert Update(env, inputs[0], tick, w) == w;
      PausedWorldStaysFrozen(env, inputs[1..], tick + 1, w);
    }
  }

  /** Winning is final: once won, the game stays won whatever the inputs. */
  lemma {:induction false} WonIsFinal(env: Env, inputs: seq<Player.Input>, tick: int, w: World)
    requires ValidEnv(env, w) && w.gameState == Won
    ensures Run(env, inputs, tick, w).gameState == Won
    decreases |inputs|
  {
    if |inputs| > 0 {
      var next := Update(env, inputs[0], tick, w);
      assert next.gameState == Won;
      WonIsFinal(env, inputs[1..], tick + 1, next);
    }
  }
}

=== FILE: geometry.dfy ===
/** Plane vectors and the host math the simulation relies on but that this model does not implement. */
module Geometry {

  datatype Vec = Vec(x: real, y: real)

  function Add(a: Vec, b: Vec): Vec { Vec(a.x + b.x, a.y + b.y) }

  function Sub(a: Vec, b: Vec): Vec { Vec(a.x - b.x, a.y - b.y) }

  function Scale(k: real, a: Vec): Vec { Vec(k * a.x, k * a.y) }

  function Dot(a: Vec, b: Vec): real { a.x * b.x + a.y * b.y }

  function SqNorm(a: Vec): real { Dot(a, a) }

  /** `Math.sqrt`, `Math.cos`, `Math.sin`, `Math.atan2` and `Math::PI`, supplied by the host.
      Properties that depend on them say so in a `requires` (see `IsSqrtOf`). */
  datatype Numerics = Numerics(
    sqrt: real -> real,
    cos: real -> real,
    sin: real -> real,
    atan2: (real, real) -> real,
    pi: real)

  /** `r` is the true square root of `x`. */
  predicate IsSqrtOf(r: real, x: real) {
    r >= 0.0 && r * r == x
  }

  /** `$geometry.distance(a, b)`: the host square root of the squared distance. */
  function Distance(num: Numerics, a: Vec, b: Vec): real {
    num.sqrt(SqNorm(Sub(a, b)))
  }

  lemma SqNormNonnegative(a: Vec)
    ensures SqNorm(a) >= 0.0
  {
    SqSumNonnegative(a.x, a.y);
  }

  /** Every square root the host returns is exact. */
  ghost predicate ExactSqrt(num: Numerics) {
    forall x :: x >= 0.0 ==> IsSqrtOf(num.sqrt(x), x)
  }

  /** Scaling the vector (dx, dy) of length `d` to `(s * dx / d, s * dy / d)` gives a vector of
      length |s| whose projection onto (dx, dy) is `s * d`, i.e. it lies along (dx, dy) when
      `s > 0`. */
  lemma ScaledToLength(s: real, d: real, dx: real, dy: real)
    requires d > 0.0 && d * d == dx * dx + dy * dy
    ensures SqNorm(Vec((s * dx) / d, (s * dy) / d)) == s * s
    ensures Dot(Vec((s * dx) / d, (s * dy) / d), Vec(dx, dy)) == s * d
    ensures ((s * dx) / d) * dy == ((s * dy) / d) * dx
    ensures s > 0.0 ==> Dot(Vec((s * dx) / d, (s * dy) / d), Vec(dx, dy)) > 0.0
  {
    if s > 0.0 {
      ProductPositive(s, d);
    }
    var k := s / d;
    DivideAfterScaling(s, dx, d);
    DivideAfterScaling(s, dy, d);
    ScaleNorm(k, dx, dy);
    SquareOfProduct(k, d, s);
    assert Dot(Vec(k * dx, k * dy), Vec(dx, dy)) == k * (dx * dx + dy * dy);
  }

  /** `ScaledToLength` as an implication, for callers that cannot rule out an inexact host
      square root. */
  lemma ScaledToLengthIfExact(s: real, d: real, dx: real, dy: real)
    ensures d > 0.0 && d * d == dx * dx + dy * dy ==>
      SqNorm(Vec((s * dx) / d, (s * dy) / d)) == s * s &&
      Dot(Vec((s * dx) / d, (s * dy) / d), Vec(dx, dy)) == s * d &&
      ((s * dx) / d) * dy == ((s * dy) / d) * dx
  {
    if d > 0.0 && d * d == dx * dx + dy * dy {
      ScaledToLength(s, d, dx, dy);
    }
  }

  /** Scaling distributes over the sum of the factors. */
  lemma ScaleAdd(a: real, b: real, h: Vec)
    ensures Add(Scale(a, h), Scale(b, h)) == Scale(a + b, h)
  {
  }

  /** Scaling by `l` multiplies the squared length by `l * l`. */
  lemma ScaleSqNorm(l: real, h: Vec)
    ensures SqNorm(Scale(l, h)) == (l * l) * SqNorm(h)
  {
  }

  /** Two nonnegative numbers with the same square are equal. */
  lemma SquareInjective(r: real, l: real)
    requires r >= 0.0 && l >= 0.0 && r * r == l * l
    ensures r == l
  {
    assert (r - l) * (r + l) == 0.0;
    if r + l == 0.0 {
    } else {
      assert r + l > 0.0;
      CancelPositive(r - l, 0.0, r + l);
    }
  }

  /** An exact host square root of `l * l` is `l`, for `l >= 0`. */
  lemma SqrtOfSquare(num: Numerics, l: real, x: real)
    requires ExactSqrt(num) && l >= 0.0 && x == l * l
    ensures num.sqrt(x) == l
  {
    var r := num.sqrt(x);
    assert IsSqrtOf(r, x);
    SquareInjective(r, l);
  }

  /** Squaring preserves bounds on nonnegative numbers. */
  lemma SquareBounds(s: real, lo: real, hi: real)
    requires 0.0 <= lo <= s <= hi
    ensures lo * lo <= s * s <= hi * hi
  {
    assert lo * lo <= lo * s <= s * s;
    assert s * s <= s * hi <= hi * hi;
  }

  lemma DivideAfterScaling(s: real, x: real, d: real)
    requires d != 0.0
    ensures (s * x) / d == (s / d) * x
  {
  }

  lemma ScaleNorm(k: real, x: real, y: real)
    ensures (k * x) * (k * x) + (k * y) * (k * y) == (k * k) * (x * x + y * y)
  {
  }

  lemma SquareOfProduct(k: real, d: real, s: real)
    requires k * d == s
    ensures (k * k) * (d * d) == s * s
  {
  }

  lemma CancelPositive(x: real, y: real, k: real)
    requires k > 0.0 && x * k == y * k
    ensures x == y
  {
    assert (x - y) * k == 0.0;
  }

  /** Dividing a nonnegative numerator by a larger positive divisor gives no more. */
  lemma DivAntitone(a: real, q1: real, q2: real)
    requires a >= 0.0 && 0.0 < q1 <= q2
    ensures a / q1 >= a / q2
  {
    var x, y := a / q1, a / q2;
    assert x * q1 == a && y * q2 == a;
    PositiveFactor(y, q2);
    assert y * q1 <= y * q2;
    assert (x - y) * q1 >= 0.0;
    PositiveFactor(x - y, q1);
  }

  lemma ProductPositive(a: real, b: real)
    requires a > 0.0 && b > 0.0
    ensures a * b > 0.0
  {
  }

  lemma SqSumNonnegative(a: real, b: real)
    ensures a * a + b * b >= 0.0
  {
  }

  /** A product with a positive factor has the sign of the other factor. */
  lemma PositiveFactor(a: real, b: real)
    requires b > 0.0 && a * b >= 0.0
    ensures a >= 0.0
  {
  }
}

=== FILE: player.dfy ===
/** The player (player.rb): a movement / charging / rushing state machine, the rush prediction
    shown while charging, and hit intake with a flash cooldown and a damage cooldown. */
module Player {
  import opened Geometry
  import opened Options
  import opened Seqs
  import opened Entity
  import CrescentMoon

  /** `PLAYER_SPEED`. */
  const Speed: int := 15
  /** `PLAYER_DIAGONAL_SPEED`, Ruby's `(15 / Math.sqrt(2)).round`. */
  const DiagonalSpeed: int := 11
  /** Charging power is capped here. */
  const MaxPower: nat := 120
  /** A charge of at least this power can be released into a rush. */
  const ReadyPower: nat := 40
  const MaxHp: int := 60
  /** The screen flash fires when more than this many ticks passed since the last flash. */
  const FlashCooldown: int := 60
  /** Damage applies when more than this many ticks passed since the last flash. */
  const DamageCooldown: int := 20

  /** The input snapshot: direction keys, the charge key (down or held) and the pause key. */
  datatype Input = Input(left: bool, right: bool, up: bool, down: bool, charge: bool, pause: bool)

  datatype HitType = Shuriken | RedArrowHit | OtherHit

  /** An entry of the player's hit queue; `angle` only places blood stains. */
  datatype Hit = Hit(angle: real, kind: HitType)

  /** `ready` is absent (false) until the first held frame; `predictedDistance` is stored once ready. */
  datatype PlayerState =
    | Movement
    | Charging(ticks: nat, power: nat, ready: bool, predictedDistance: Option<real>)
    | Rushing(power: nat)

  datatype Player = Player(body: Body, faceAngle: real, state: PlayerState, hits: seq<Hit>, lastHitTick: int, hp: int)

  /** The invariant every player keeps: radius 50, hp in [0, 60], a charge whose power is its
      ticks capped at 120 and whose readiness is power >= 40, and a rush power of at most 120. */
  predicate Valid(p: Player) {
    && p.body.collisionRadius == 50.0
    && 0 <= p.hp <= MaxHp
    && match p.state
       case Movement => true
       case Charging(ticks, power, ready, predicted) =>
         && power == (if ticks < MaxPower then ticks else MaxPower)
         && ready == (power >= ReadyPower)
         && (predicted.Some? ==> ready)
       case Rushing(power) => power <= MaxPower
  }

  /** `build`: at rest at (x, y) in the movement state, with full hp, no hits and a last hit far
      enough in the past that the first hit flashes and damages. */
  function Build(x: real, y: real): (p: Player)
    ensures Valid(p)
    ensures Position(p.body) == Vec(x, y) && !Moving(p.body)
    ensures p.state == Movement && p.hp == MaxHp && p.hits == []
    ensures p.lastHitTick + FlashCooldown < 0
  {
    Player(Body(x, y, 0.0, 0.0, 50.0), 0.0, Movement, [], -1000, 60)
  }

  /** Ruby's `Float#round` on a positive number: to the nearest integer, halves upward. */
  function RoundPositive(x: real): int
    requires x >= 0.0
  {
    (x + 0.5).Floor
  }

  /** The diagonal speed constant is 15 divided by the square root of 2, rounded: 15 / sqrt 2
      lies between 10.5 and 11.5. */
  lemma DiagonalSpeedIsRoundedQuotient(sqrt2: real)
    requires sqrt2 > 0.0 && sqrt2 * sqrt2 == 2.0
    ensures 10.5 < (Speed as real) / sqrt2 < 11.5
    ensures RoundPositive((Speed as real) / sqrt2) == DiagonalSpeed
  {
    var q := 15.0 / sqrt2;
    assert q * sqrt2 == 15.0;
    PositiveFactor(q, sqrt2);
    assert (q * q) * 2.0 == (q * sqrt2) * (q * sqrt2);
    assert q * q == 112.5;
    if q <= 10.5 {
      SquareBounds(q, 0.0, 10.5);
      assert false;
    }
    if q >= 11.5 {
      SquareBounds(11.5, 0.0, q);
      assert false;
    }
  }

  /** `update_velocity`: a unit direction from the keys (left beats right, up beats down, up is
      +y), scaled by 15 on one axis or by 11 on each axis of a diagonal. */
  function UpdateVelocity(input: Input): (v: Vec)
    ensures (v.x < 0.0 <==> input.left) && (v.x > 0.0 <==> !input.left && input.right)
    ensures (v.y > 0.0 <==> input.up) && (v.y < 0.0 <==> !input.up && input.down)
    ensures v.x != 0.0 && v.y != 0.0 ==>
      (v.x == 11.0 || v.x == -11.0) && (v.y == 11.0 || v.y == -11.0)
    ensures v.x == 0.0 || v.y == 0.0 ==>
      (v.x == 0.0 || v.x == 15.0 || v.x == -15.0) && (v.y == 0.0 || v.y == 15.0 || v.y == -15.0)
  {
    var ux := if input.left then -1 else if input.right then 1 else 0;
    var uy := if input.up then 1 else if input.down then -1 else 0;
    var speed := if ux != 0 && uy != 0 then DiagonalSpeed else Speed;
    Vec((ux * speed) as real, (uy * speed) as real)
  }

  /** `start_charging` (state part): a fresh charge at power 0, standing still. */
  function StartCharging(p: Player): (r: Player)
    ensures r.state == Charging(0, 0, false, None) && !Moving(r.body)
    ensures Position(r.body) == Position(p.body) && r.body.collisionRadius == p.body.collisionRadius
    ensures r.faceAngle == p.faceAngle && r.hits == p.hits && r.hp == p.hp && r.lastHitTick == p.lastHitTick
  {
    p.(body := WithVelocity(p.body, Vec(0.0, 0.0)), state := Charging(0, 0, false, None))
  }

  /** `handle_movement`. After game over the player only stops. Otherwise the velocity follows
      the keys, the facing follows a nonzero velocity (`update_face_angle`), and the charge key
      starts a charge. */
  function HandleMovement(num: Numerics, input: Input, gameState: GameState, p: Player): (r: Player)
    requires p.state.Movement?
    ensures GameOver(gameState) ==> r == p.(body := WithVelocity(p.body, Vec(0.0, 0.0)))
    ensures !GameOver(gameState) && input.charge ==> r.state == Charging(0, 0, false, None) && !Moving(r.body)
    ensures !GameOver(gameState) && !input.charge ==> r.state == Movement && Velocity(r.body) == UpdateVelocity(input)
    ensures !GameOver(gameState) ==>
      var v := UpdateVelocity(input);
      r.faceAngle == if v.x != 0.0 || v.y != 0.0 then num.atan2(v.y, v.x) else p.faceAngle
    ensures Position(r.body) == Position(p.body) && r.body.collisionRadius == p.body.collisionRadius
    ensures r.hits == p.hits && r.hp == p.hp && r.lastHitTick == p.lastHitTick
  {
    if GameOver(gameState) then
      p.(body := WithVelocity(p.body, Vec(0.0, 0.0)))
    else
      var v := UpdateVelocity(input);
      var faceAngle := if v.x != 0.0 || v.y != 0.0 then num.atan2(v.y, v.x) else p.faceAngle;
      var moved := p.(body := WithVelocity(p.body, v), faceAngle := faceAngle);
      assert Velocity(moved.body) == v;
      if input.charge then StartCharging(moved) else moved
  }

  /** `power.idiv(2) * 10`. */
  function RushSpeed(power: nat): nat {
    (power / 2) * 10
  }

  function Heading(num: Numerics, angle: real): Vec {
    Vec(num.cos(angle), num.sin(angle))
  }

  /** The rush velocity at a given remaining power, along the facing. */
  function RushVelocity(num: Numerics, faceAngle: real, power: nat): Vec {
    Scale(RushSpeed(power) as real, Heading(num, faceAngle))
  }

  /** `power - 10`, floored at 0. */
  function DrainedPower(power: nat): (r: nat)
    ensures power > 0 ==> r < power
    ensures r == 0 <==> power <= 10
    ensures r > 0 ==> r + 10 == power
  {
    if power > 10 then power - 10 else 0
  }

  /** `execute_rush`: the power drops by 10 (not below 0). While power remains the velocity is
      the rush speed along the facing; on the frame it runs out the velocity is left as it was. */
  function ExecuteRush(num: Numerics, p: Player): (r: Player)
    requires p.state.Rushing?
    ensures r.state.Rushing? && r.state.power == DrainedPower(p.state.power)
    ensures r.state.power > 0 ==> Velocity(r.body) == RushVelocity(num, p.faceAngle, r.state.power)
    ensures r.state.power == 0 ==> r.body == p.body
    ensures Position(r.body) == Position(p.body) && r.body.collisionRadius == p.body.collisionRadius
    ensures r.faceAngle == p.faceAngle && r.hits == p.hits && r.hp == p.hp && r.lastHitTick == p.lastHitTick
  {
    var power := DrainedPower(p.state.power);
    if power == 0 then p.(state := Rushing(0))
    else
      var speed := RushSpeed(power) as real;
      var v := Vec(num.cos(p.faceAngle) * speed, num.sin(p.faceAngle) * speed);
      assert v == RushVelocity(num, p.faceAngle, power);
      p.(body := WithVelocity(p.body, v), state := Rushing(power))
  }

  /** The loop of `predict_rush_distance` on a simulated copy rushing at `power` with velocity
      `v`: until the power is zero, execute one rush step and add the velocity it leaves. */
  function SimulatedDisplacement(num: Numerics, faceAngle: real, power: nat, v: Vec): Vec
    decreases power
  {
    if power == 0 then Vec(0.0, 0.0)
    else
      var next := DrainedPower(power);
      var velocity := if next == 0 then v else RushVelocity(num, faceAngle, next);
      Add(velocity, SimulatedDisplacement(num, faceAngle, next, velocity))
  }

  /** `predict_rush_distance`: the host length of the displacement of a simulated copy of the
      player rushing at the charge's `power` from its facing and current velocity. The copy has
      its own state, so the player itself is not changed. */
  function PredictRushDistance(num: Numerics, p: Player): real
    requires p.state.Charging?
  {
    PredictedLength(num, SimulatedDisplacement(num, p.faceAngle, p.state.power, Velocity(p.body)))
  }

  /** `Math.sqrt((distance_x**2) + (distance_y**2))`. */
  function PredictedLength(num: Numerics, d: Vec): real {
    num.sqrt(d.x * d.x + d.y * d.y)
  }

  /** The path length of a rush of power above 10, in closed form: with `n = (power - 1) div 10`
      positive steps and `h = power div 2`, step `k` moves `10h - 50k` and the last step's
      distance is covered once more on the frame the power runs out. */
  function RushLength(power: nat): int
    requires power > 10
  {
    var n := (power - 1) / 10;
    var h := power / 2;
    (n + 1) * (10 * h - 25 * n) - 50 * n
  }

  /** A full charge of 40 rushes 150 + 100 + 50 + 50. */
  lemma RushLengthOfReadyCharge()
    ensures RushLength(ReadyPower) == 350
    ensures RushSpeed(30) == 150 && RushSpeed(20) == 100 && RushSpeed(10) == 50
  {
  }

  lemma RushLengthStep(power: nat)
    requires power > 20
    ensures RushLength(power) == RushSpeed(power - 10) + RushLength(power - 10)
  {
    var m := (power - 11) / 10;
    var h := power / 2;
    assert (power - 1) / 10 == m + 1;
    assert (power - 10) / 2 == h - 5;
    assert RushLength(power) == (m + 2) * (10 * h - 25 * m - 25) - 50 * m - 50;
    assert RushLength(power - 10) == (m + 1) * (10 * h - 50 - 25 * m) - 50 * m;
    assert RushSpeed(power - 10) == 10 * h - 50;
  }

  lemma RushLengthBase(power: nat)
    requires 10 < power <= 20
    ensures RushLength(power) == 2 * RushSpeed(power - 10)
  {
    assert (power - 1) / 10 == 1;
    assert (power - 10) / 2 == power / 2 - 5;
  }

  /** The per-frame speeds of a rush of power above 10 summed, with the last one counted twice:
      the path length step by step. */
  function RushPath(power: nat): int
    requires power > 10
    decreases power
  {
    if power <= 20 then 2 * RushSpeed(power - 10)
    else RushSpeed(power - 10) + RushPath(power - 10)
  }

  /** The step-by-step path length agrees with the closed form. */
  lemma {:induction false} RushPathClosedForm(power: nat)
    requires power > 10
    ensures RushPath(power) == RushLength(power)
    decreases power
  {
    if power <= 20 {
      RushLengthBase(power);
    } else {
      RushPathClosedForm(power - 10);
      RushLengthStep(power);
    }
  }

  /** One step of the simulation loop with power left after it. */
  lemma SimulatedStep(num: Numerics, faceAngle: real, power: nat, v: Vec)
    requires power > 10
    ensures var velocity := RushVelocity(num, faceAngle, power - 10);
      SimulatedDisplacement(num, faceAngle, power, v) ==
        Add(velocity, SimulatedDisplacement(num, faceAngle, power - 10, velocity))
  {
  }

  /** The last step of the simulation loop repeats the velocity it is given. */
  lemma SimulatedLastStep(num: Numerics, faceAngle: real, power: nat, v: Vec)
    requires 0 < power <= 10
    ensures SimulatedDisplacement(num, faceAngle, power, v) == v
  {
    assert SimulatedDisplacement(num, faceAngle, power, v) == Add(v, Vec(0.0, 0.0));
  }

  /** A rush of power above 10 moves along the facing by exactly its path length, whatever
      velocity it started with. */
  lemma {:induction false} SimulatedRushAlongHeading(num: Numerics, faceAngle: real, power: nat, v: Vec)
    requires power > 10
    ensures SimulatedDisplacement(num, faceAngle, power, v) == Scale(RushPath(power) as real, Heading(num, faceAngle))
    ensures RushPath(power) >= 0
    decreases power
  {
    var h := Heading(num, faceAngle);
    var next := power - 10;
    var velocity := RushVelocity(num, faceAngle, next);
    var rest := SimulatedDisplacement(num, faceAngle, next, velocity);
    SimulatedStep(num, faceAngle, power, v);
    if power <= 20 {
      SimulatedLastStep(num, faceAngle, next, velocity);
      AddAlong(SimulatedDisplacement(num, faceAngle, power, v), velocity, rest,
        RushSpeed(next) as real, RushSpeed(next) as real, RushPath(power) as real, h);
    } else {
      SimulatedRushAlongHeading(num, faceAngle, next, velocity);
      AddAlong(SimulatedDisplacement(num, faceAngle, power, v), velocity, rest,
        RushSpeed(next) as real, RushPath(next) as real, RushPath(power) as real, h);
    }
  }

  /** Two steps along the same heading add up to one step of the summed length. */
  lemma AddAlong(total: Vec, a: Vec, b: Vec, s: real, t: real, l: real, h: Vec)
    requires total == Add(a, b) && a == Scale(s, h) && b == Scale(t, h) && l == s + t
    ensures total == Scale(l, h)
  {
    ScaleAdd(s, t, h);
  }

  /** With an exact host square root and a unit heading, the predicted distance of a charge of
      power above 10 is the closed-form rush length (350 for power 40). */
  lemma PredictRushDistanceIsRushLength(num: Numerics, p: Player)
    requires p.state.Charging? && p.state.power > 10
    requires ExactSqrt(num) && SqNorm(Heading(num, p.faceAngle)) == 1.0
    ensures PredictRushDistance(num, p) == RushLength(p.state.power) as real
  {
    var l := RushPath(p.state.power) as real;
    SimulatedRushAlongHeading(num, p.faceAngle, p.state.power, Velocity(p.body));
    RushPathClosedForm(p.state.power);
    LengthAlongUnitHeading(num, l, Heading(num, p.faceAngle));
  }

  /** The host length of `l` times a unit vector is `l`, for `l >= 0` and an exact square root. */
  lemma LengthAlongUnitHeading(num: Numerics, l: real, h: Vec)
    requires ExactSqrt(num) && SqNorm(h) == 1.0 && l >= 0.0
    ensures PredictedLength(num, Scale(l, h)) == l
  {
    var d := Scale(l, h);
    ScaleSqNorm(l, h);
    assert SqNorm(d) == l * l;
    assert d.x * d.x + d.y * d.y == SqNorm(d);
    SqrtOfSquare(num, l, d.x * d.x + d.y * d.y);
  }

  /** `handle_charging` (state part). While the key is held the charge counts up, its power is
      the tick count capped at 120, it is ready from power 40 on, and a ready charge stores the
      predicted rush distance. On release a ready charge becomes a rush of that power and any
      other charge falls back to movement. */
  function HandleCharging(num: Numerics, input: Input, p: Player): (r: Player)
    requires p.state.Charging?
    ensures r.body == p.body && r.faceAngle == p.faceAngle
    ensures r.hits == p.hits && r.hp == p.hp && r.lastHitTick == p.lastHitTick
    ensures input.charge ==>
      && r.state.Charging?
      && r.state.ticks == p.state.ticks + 1
      && r.state.power == (if r.state.ticks < MaxPower then r.state.ticks else MaxPower)
      && (r.state.ready <==> r.state.power >= ReadyPower)
      && (r.state.ready ==> r.state.predictedDistance == Some(PredictRushDistance(num, r)))
      && (!r.state.ready ==> r.state.predictedDistance == p.state.predictedDistance)
    ensures !input.charge ==>
      r.state == if p.state.ready then Rushing(p.state.power) else Movement
  {
    if input.charge then
      var ticks := p.state.ticks + 1;
      var power := if ticks < MaxPower then ticks else MaxPower;
      var ready := power >= ReadyPower;
      var charged := p.(state := Charging(ticks, power, ready, p.state.predictedDistance));
      if ready then
        var predicted := PredictRushDistance(num, charged);
        var r := charged.(state := charged.state.(predictedDistance := Some(predicted)));
        assert r.state.power == charged.state.power && r.body == charged.body && r.faceAngle == charged.faceAngle;
        r
      else charged
    else if p.state.ready then p.(state := Rushing(p.state.power))
    else p.(state := Movement)
  }

  /** A rush hit: the enemy becomes a fresh corpse at rest. */
  function Kill(m: CrescentMoon.Moon): (r: CrescentMoon.Moon)
    ensures r.state == CrescentMoon.Dead(0) && !Moving(r.body)
    ensures Position(r.body) == Position(m.body) && r.body.collisionRadius == m.body.collisionRadius
  {
    CrescentMoon.Moon(WithVelocity(m.body, Vec(0.0, 0.0)), CrescentMoon.Dead(0))
  }

  function Bodies(enemies: seq<CrescentMoon.Moon>): (r: seq<Body>)
    ensures |r| == |enemies| && forall i :: 0 <= i < |enemies| ==> r[i] == enemies[i].body
  {
    seq(|enemies|, i requires 0 <= i < |enemies| => enemies[i].body)
  }

  /** Every enemy the rusher's one-frame sweep touches is killed, dead or alive; the rest are
      unchanged. */
  function KillSwept(rusher: Body, enemies: seq<CrescentMoon.Moon>): (r: seq<CrescentMoon.Moon>)
    ensures |r| == |enemies|
    ensures forall i :: 0 <= i < |enemies| ==>
      r[i] == if SweptHit(rusher, enemies[i].body) then Kill(enemies[i]) else enemies[i]
    ensures forall i :: 0 <= i < |enemies| ==>
      (r[i] == Kill(enemies[i]) || r[i] == enemies[i]) &&
      (enemies[i].body in MovingEntityCollisions(rusher, Bodies(enemies)) ==> r[i] == Kill(enemies[i]))
  {
    seq(|enemies|, i requires 0 <= i < |enemies| =>
      if SweptHit(rusher, enemies[i].body) then Kill(enemies[i]) else enemies[i])
  }

  predicate AllDead(enemies: seq<CrescentMoon.Moon>) {
    forall i :: 0 <= i < |enemies| ==> enemies[i].state.Dead?
  }

  /** The result of a player tick: the player, the enemy list, and the game state. */
  datatype TickResult = TickResult(player: Player, enemies: seq<CrescentMoon.Moon>, gameState: GameState)

  /** `handle_rushing`: one rush step, the sweep kills, `won` when every enemy is dead (also with
      no enemies), and back to movement on the frame the power reaches 0. */
  function HandleRushing(num: Numerics, gameState: GameState, p: Player, enemies: seq<CrescentMoon.Moon>): (r: TickResult)
    requires p.state.Rushing?
    ensures var rushed := ExecuteRush(num, p);
      && r.enemies == KillSwept(rushed.body, enemies)
      && r.player == (if rushed.state.power == 0 then rushed.(state := Movement) else rushed)
    ensures r.player.state == Movement <==> DrainedPower(p.state.power) == 0
    ensures r.gameState == Won <==> AllDead(r.enemies) || gameState == Won
    ensures r.gameState != Won ==> r.gameState == gameState
    ensures AllDead(enemies) ==> r.gameState == Won
  {
    var rushed := ExecuteRush(num, p);
    var after := KillSwept(rushed.body, enemies);
    var state := if AllDead(after) then Won else gameState;
    assert AllDead(enemies) ==> AllDead(after);
    var player := if rushed.state.power == 0 then rushed.(state := Movement) else rushed;
    TickResult(player, after, state)
  }

  /** `Player.tick`: dispatch on the state type. */
  function Tick(num: Numerics, input: Input, gameState: GameState, p: Player, enemies: seq<CrescentMoon.Moon>): (r: TickResult)
    ensures Valid(p) ==> Valid(r.player)
    ensures |r.enemies| == |enemies|
    ensures forall i :: 0 <= i < |enemies| ==>
      r.enemies[i] == enemies[i] || r.enemies[i] == Kill(enemies[i])
    ensures !p.state.Rushing? ==> r.enemies == enemies && r.gameState == gameState
    ensures r.gameState == gameState || r.gameState == Won
    ensures Position(r.player.body) == Position(p.body)
    ensures r.player.hits == p.hits && r.player.hp == p.hp && r.player.lastHitTick == p.lastHitTick
  {
    match p.state
    case Movement => TickResult(HandleMovement(num, input, gameState, p), enemies, gameState)
    case Charging(_, _, _, _) => TickResult(HandleCharging(num, input, p), enemies, gameState)
    case Rushing(_) => HandleRushing(num, gameState, p, enemies)
  }

  /** One rush frame of the player alone: the rush step, the return to movement, and the
      position integration `update` applies at the end of the frame. */
  function RushFrame(num: Numerics, p: Player): Player
    requires p.state.Rushing?
  {
    var rushed := ExecuteRush(num, p);
    var player := if rushed.state.power == 0 then rushed.(state := Movement) else rushed;
    player.(body := Integrate(player.body))
  }

  /** Rush frames until the player is back in movement. */
  function RunRush(num: Numerics, p: Player): Player
    requires p.state.Rushing?
    decreases p.state.power
  {
    var next := RushFrame(num, p);
    if next.state.Rushing? then RunRush(num, next) else next
  }

  /** The number of frames a rush of positive power lasts: one per 10 power, rounded up. */
  function RushFrames(power: nat): (n: nat)
    ensures n >= 1
    decreases power
  {
    if power <= 10 then 1 else 1 + RushFrames(power - 10)
  }

  /** The prediction shown while charging is what the rush then does: a rush of positive power
      moves the player by exactly the simulated displacement and ends in movement. */
  lemma {:induction false} RushFollowsPrediction(num: Numerics, p: Player)
    requires p.state.Rushing? && p.state.power > 0
    ensures RunRush(num, p).state == Movement
    ensures Position(RunRush(num, p).body) ==
      Add(Position(p.body), SimulatedDisplacement(num, p.faceAngle, p.state.power, Velocity(p.body)))
    decreases p.state.power
  {
    var next := RushFrame(num, p);
    var rushed := ExecuteRush(num, p);
    var power := DrainedPower(p.state.power);
    var velocity := if power == 0 then Velocity(p.body) else RushVelocity(num, p.faceAngle, power);
    assert Velocity(rushed.body) == velocity;
    assert Position(next.body) == Add(Position(p.body), velocity);
    if power > 0 {
      RushFollowsPrediction(num, next);
      assert Velocity(next.body) == velocity;
    }
  }

  /** The damage of one hit: 10 for a shuriken, 20 for a red arrow, none for other types. */
  function Damage(h: Hit): (d: int)
    ensures 0 <= d <= 20
  {
    match h.kind
    case Shuriken => 10
    case RedArrowHit => 20
    case OtherHit => 0
  }

  /** The summed damage of a hit queue. */
  function TotalDamage(hits: seq<Hit>): (d: int)
    ensures 0 <= d <= 20 * |hits|
    ensures (forall i :: 0 <= i < |hits| ==> hits[i].kind == OtherHit) ==> d == 0
  {
    if |hits| == 0 then 0 else Damage(hits[0]) + TotalDamage(hits[1..])
  }

  /** Damage adds up over a split queue, so the order hits arrive in does not matter. */
  lemma {:induction false} TotalDamageAppend(a: seq<Hit>, b: seq<Hit>)
    ensures TotalDamage(a + b) == TotalDamage(a) + TotalDamage(b)
    decreases |a|
  {
    if |a| > 0 {
      assert (a + b)[1..] == a[1..] + b;
      TotalDamageAppend(a[1..], b);
    } else {
      assert a + b == b;
    }
  }

  datatype HitsResult = HitsResult(player: Player, gameState: GameState)

  /** `handle_hits` (hp and cooldown part). With no hits nothing changes. After game over the
      hits are discarded. Otherwise, measured from the last flash tick: a gap above 60 records
      this tick as the last flash, a gap above 20 applies every hit's damage, floors hp at 0 and
      loses the game at 0 hp. The queue is empty afterwards. */
  function HandleHits(tick: int, gameState: GameState, p: Player): (r: HitsResult)
    ensures |p.hits| == 0 ==> r == HitsResult(p, gameState)
    ensures |p.hits| > 0 ==> r.player.hits == []
    ensures r.player == p.(hits := r.player.hits, lastHitTick := r.player.lastHitTick, hp := r.player.hp)
    ensures GameOver(gameState) ==> r.gameState == gameState && r.player.hp == p.hp && r.player.lastHitTick == p.lastHitTick
    ensures |p.hits| > 0 && !GameOver(gameState) ==>
      var gap := tick - p.lastHitTick;
      && (gap > FlashCooldown ==> r.player.lastHitTick == tick)
      && (gap <= FlashCooldown ==> r.player.lastHitTick == p.lastHitTick)
      && (gap <= DamageCooldown ==> r.player.hp == p.hp && r.gameState == gameState)
      && (gap > DamageCooldown ==>
            && r.player.hp == (if p.hp - TotalDamage(p.hits) < 0 then 0 else p.hp - TotalDamage(p.hits))
            && (r.gameState == Lost <==> r.player.hp == 0 || gameState == Lost))
    ensures p.hp >= 0 ==> 0 <= r.player.hp <= p.hp
    ensures r.gameState == gameState || r.gameState == Lost
  {
    if |p.hits| == 0 then HitsResult(p, gameState)
    else if GameOver(gameState) then HitsResult(p.(hits := []), gameState)
    else
      var gap := tick - p.lastHitTick;
      var lastHitTick := if gap > FlashCooldown then tick else p.lastHitTick;
      if gap > DamageCooldown then
        var hp := p.hp - TotalDamage(p.hits);
        var floored := if hp < 0 then 0 else hp;
        HitsResult(p.(hits := [], lastHitTick := lastHitTick, hp := floored), if floored == 0 then Lost else gameState)
      else
        HitsResult(p.(hits := [], lastHitTick := lastHitTick), gameState)
  }

  /** Hit intake keeps the player invariant. */
  lemma HandleHitsPreservesValid(tick: int, gameState: GameState, p: Player)
    ensures Valid(p) ==> Valid(HandleHits(tick, gameState, p).player)
  {
  }

  /** Two queued hits inside the damage cooldown leave hp untouched, and are dropped, not kept
      for a later frame. */
  lemma HitsInsideCooldownAreDropped(tick: int, p: Player)
    requires |p.hits| > 0 && 0 <= tick - p.lastHitTick <= DamageCooldown
    ensures var r := HandleHits(tick, Playing, p);
      r.player.hp == p.hp && r.player.hits == [] && r.gameState == Playing
  {
  }
}

=== FILE: red_arrow.dfy ===
/** The red-arrow enemy (enemies/red_arrow.rb): it stands still for 60 ticks, then runs at speed
    30 along its facing, turning by a right angle when its run countdown expires or when it did
    not move since the last frame, and keeps the last ten positions as a trail. */
module RedArrow {
  import opened Geometry
  import opened Options
  import opened Entity

  const RunSpeed: real := 30.0
  /** The arrow starts running once its standing ticks exceed this. */
  const StandingTicks: nat := 60
  /** The trail keeps at most this many samples. */
  const HistoryLength: nat := 10

  /** One trail entry: `red_arrow.slice(:x, :y, :face_angle)`. */
  datatype Sample = Sample(x: real, y: real, faceAngle: int)

  /** A fresh running state is `Running(0, None, [])`: `ticks ||= 0` and `last_positions ||= []`
      read an absent value as 0 and [], while the run countdown is drawn on first use. */
  datatype ArrowState =
    | Standing(ticks: nat)
    | Running(ticks: nat, remaining: Option<int>, lastPositions: seq<Sample>)

  /** The arrow's face angle is in whole degrees. */
  datatype Arrow = Arrow(body: Body, faceAngle: int, state: ArrowState)

  /** The random draws of one running frame: `rand(20)` for a first countdown, `rand(20)` for a
      redrawn countdown, and the `[90, -90].sample` turn. */
  datatype Dice = Dice(firstRun: int, nextRun: int, turn: int)

  predicate ValidDice(dice: Dice) {
    0 <= dice.firstRun < 20 && 0 <= dice.nextRun < 20 && (dice.turn == 90 || dice.turn == -90)
  }

  /** One of the four axis directions, in degrees. */
  predicate RightAngle(a: int) {
    a == 0 || a == 90 || a == 180 || a == 270
  }

  /** The invariant every arrow keeps: radius 50, an axis-aligned facing, a drawn countdown in
      [1, 39] and a trail of at most ten axis-aligned samples. */
  predicate Valid(a: Arrow) {
    && a.body.collisionRadius == 50.0
    && RightAngle(a.faceAngle)
    && (a.state.Running? ==>
          && (a.state.remaining.Some? ==> 1 <= a.state.remaining.value <= 39)
          && |a.state.lastPositions| <= HistoryLength
          && forall i :: 0 <= i < |a.state.lastPositions| ==> RightAngle(a.state.lastPositions[i].faceAngle))
  }

  /** `build`: at rest at (x, y), facing angle 0, standing. */
  function Build(x: real, y: real): (a: Arrow)
    ensures Valid(a)
    ensures Position(a.body) == Vec(x, y) && !Moving(a.body)
    ensures a.faceAngle == 0 && a.state == Standing(0)
  {
    Arrow(Body(x, y, 0.0, 0.0, 50.0), 0, Standing(0))
  }

  /** `Numeric#to_radians`. */
  function Radians(num: Numerics, degrees: int): real {
    (degrees as real) * num.pi / 180.0
  }

  /** `handle_standing`: one more standing tick; the 61st switches to a fresh running state. */
  function HandleStanding(a: Arrow): (r: Arrow)
    requires a.state.Standing?
    ensures r.body == a.body && r.faceAngle == a.faceAngle
    ensures a.state.ticks + 1 > StandingTicks <==> r.state == Running(0, None, [])
    ensures a.state.ticks + 1 <= StandingTicks ==> r.state == Standing(a.state.ticks + 1)
  {
    var ticks := a.state.ticks + 1;
    if ticks > StandingTicks then a.(state := Running(0, None, []))
    else a.(state := Standing(ticks))
  }

  /** A quarter turn, reduced into [0, 360) by Ruby's `% 360`. It always changes the angle. */
  function Turn(faceAngle: int, turn: int): (r: int)
    requires turn == 90 || turn == -90
    ensures 0 <= r < 360 && r != faceAngle
    ensures RightAngle(faceAngle) ==> RightAngle(r)
  {
    (faceAngle + turn) % 360
  }

  /** `didnt_move`: the arrow stands on the last trail sample. An empty trail (Ruby's `nil` from
      `last&.dig`) never matches. */
  predicate DidntMove(b: Body, trail: seq<Sample>) {
    |trail| > 0 && b.x == trail[|trail| - 1].x && b.y == trail[|trail| - 1].y
  }

  /** `handle_running`. The velocity comes from the facing before any turn; the arrow turns when
      its countdown runs out or it did not move; the post-turn sample is appended to the trail
      and the oldest sample is dropped beyond ten. */
  function HandleRunning(num: Numerics, dice: Dice, a: Arrow): (r: Arrow)
    requires a.state.Running? && ValidDice(dice)
    ensures r.state.Running? && r.state.ticks == a.state.ticks + 1
    ensures Position(r.body) == Position(a.body) && r.body.collisionRadius == a.body.collisionRadius
    ensures r.body.vx == num.cos(Radians(num, a.faceAngle)) * RunSpeed
    ensures r.body.vy == num.sin(Radians(num, a.faceAngle)) * RunSpeed
    ensures var countdown := a.state.remaining.GetOr(20 + dice.firstRun) - 1;
      var turned := countdown <= 0 || DidntMove(a.body, a.state.lastPositions);
      && (turned <==> r.faceAngle != a.faceAngle)
      && (turned ==> r.faceAngle == Turn(a.faceAngle, dice.turn) && r.state.remaining == Some(20 + dice.nextRun))
      && (!turned ==> r.state.remaining == Some(countdown))
    ensures a.state.remaining.None? || a.state.remaining.value <= 40 ==>
      r.state.remaining.Some? && 1 <= r.state.remaining.value <= 39
    ensures r.state.lastPositions == Remember(a.state.lastPositions, Sample(a.body.x, a.body.y, r.faceAngle))
  {
    var countdown := a.state.remaining.GetOr(20 + dice.firstRun) - 1;
    var turned := countdown <= 0 || DidntMove(a.body, a.state.lastPositions);
    var faceAngle := if turned then Turn(a.faceAngle, dice.turn) else a.faceAngle;
    var remaining := if turned then 20 + dice.nextRun else countdown;
    var kept := Remember(a.state.lastPositions, Sample(a.body.x, a.body.y, faceAngle));
    var body := WithVelocity(a.body, RunVelocity(num, a.faceAngle));
    assert Position(body) == Position(a.body) && body.collisionRadius == a.body.collisionRadius;
    assert turned <==> faceAngle != a.faceAngle;
    assert a.state.remaining.None? || a.state.remaining.value <= 40 ==> 1 <= remaining <= 39;
    Arrow(body, faceAngle, Running(a.state.ticks + 1, Some(remaining), kept))
  }

  /** The host's direction vector for a facing in degrees. */
  function Facing(num: Numerics, faceAngle: int): Vec {
    Vec(num.cos(Radians(num, faceAngle)), num.sin(Radians(num, faceAngle)))
  }

  /** The running velocity, `Math.cos(face_angle.to_radians) * speed` and its `sin` twin: it
      lies along the facing, and with a unit host direction it has length 30. */
  function RunVelocity(num: Numerics, faceAngle: int): (v: Vec)
    ensures var h := Facing(num, faceAngle);
      && v.x * h.y == v.y * h.x
      && Dot(v, h) == RunSpeed * SqNorm(h)
      && (SqNorm(h) == 1.0 ==> SqNorm(v) == RunSpeed * RunSpeed)
  {
    Vec(num.cos(Radians(num, faceAngle)) * RunSpeed, num.sin(Radians(num, faceAngle)) * RunSpeed)
  }

  /** `last_positions <<` and then one `shift` beyond ten entries: the trail keeps the newest
      samples, ending with this one. */
  function Remember(trail: seq<Sample>, sample: Sample): (r: seq<Sample>)
    ensures var t := trail + [sample];
      && |r| == (if |t| > HistoryLength then |t| - 1 else |t|)
      && r == t[|t| - |r|..]
      && r[|r| - 1] == sample
  {
    var t := trail + [sample];
    if |t| > HistoryLength then t[1..] else t
  }

  /** `tick`: dispatch on the state type. */
  function Tick(num: Numerics, dice: Dice, a: Arrow): (r: Arrow)
    requires ValidDice(dice)
    ensures Valid(a) ==> Valid(r)
    ensures Position(r.body) == Position(a.body)
  {
    match a.state
    case Standing(_) => HandleStanding(a)
    case Running(_, _, _) => HandleRunning(num, dice, a)
  }

  /** The first running frame never counts as "did not move": its trail is empty, so it turns
      only if its freshly drawn countdown has expired, which a draw in [20, 39] never has. */
  lemma FirstRunningFrameKeepsFacing(num: Numerics, dice: Dice, a: Arrow)
    requires a.state == Running(0, None, []) && ValidDice(dice)
    ensures HandleRunning(num, dice, a).faceAngle == a.faceAngle
    ensures HandleRunning(num, dice, a).state.remaining == Some(19 + dice.firstRun)
  {
    assert !DidntMove(a.body, a.state.lastPositions);
    assert a.state.remaining.GetOr(20 + dice.firstRun) - 1 == 19 + dice.firstRun;
  }

  /** `n` standing ticks in a row, stopping once the arrow runs. */
  function RunStanding(a: Arrow, n: nat): Arrow
    requires a.state.Standing?
    decreases n
  {
    if n == 0 then a
    else
      var next := HandleStanding(a);
      if next.state.Standing? then RunStanding(next, n - 1) else next
  }

  lemma {:induction false} StandingCountsUp(a: Arrow, n: nat)
    requires a.state.Standing? && a.state.ticks + n <= StandingTicks
    ensures RunStanding(a, n) == a.(state := Standing(a.state.ticks + n))
    decreases n
  {
    if n > 0 {
      StandingCountsUp(HandleStanding(a), n - 1);
    }
  }

  /** A freshly built arrow stands for exactly 60 ticks and starts running on the 61st. */
  lemma StandsFor60Ticks(x: real, y: real)
    ensures var a := Build(x, y);
      && (forall n :: 0 <= n <= StandingTicks ==> RunStanding(a, n).state == Standing(n))
      && RunStanding(a, StandingTicks + 1).state == Running(0, None, [])
  {
    var a := Build(x, y);
    forall n | 0 <= n <= StandingTicks
      ensures RunStanding(a, n).state == Standing(n)
    {
      StandingCountsUp(a, n);
    }
    StandingCountsUp(a, StandingTicks);
    StandingStep(a, StandingTicks);
  }

  /** One more step at the end of a run that is still standing. */
  lemma {:induction false} StandingStep(a: Arrow, n: nat)
    requires a.state.Standing? && RunStanding(a, n).state.Standing?
    ensures RunStanding(a, n + 1) == HandleStanding(RunStanding(a, n))
    decreases n
  {
    if n > 0 {
      StandingStep(HandleStanding(a), n - 1);
    }
  }

  /** The arrow after one tick per die, in order. */
  function Run(num: Numerics, dice: seq<Dice>, a: Arrow): Arrow
    requires forall i :: 0 <= i < |dice| ==> ValidDice(dice[i])
    decreases |dice|
  {
    if |dice| == 0 then a else Run(num, dice[1..], Tick(num, dice[0], a))
  }

  /** Starting from `build`, however many frames pass, the arrow faces one of the four axis
      directions and its trail holds at most ten samples. */
  lemma {:induction false} RunKeepsRightAngles(num: Numerics, dice: seq<Dice>, a: Arrow)
    requires forall i :: 0 <= i < |dice| ==> ValidDice(dice[i])
    requires Valid(a)
    ensures Valid(Run(num, dice, a))
    ensures RightAngle(Run(num, dice, a).faceAngle)
    ensures Run(num, dice, a).state.Running? ==> |Run(num, dice, a).state.lastPositions| <= HistoryLength
    decreases |dice|
  {
    if |dice| > 0 {
      RunKeepsRightAngles(num, dice[1..], Tick(num, dice[0], a));
    }
  }
}

=== FILE: seqs.dfy ===
/** Small generic helpers: an optional value and an order-preserving filter. */
module Options {

  /** A value that may be absent (Ruby's `nil`). */
  datatype Option<+T> = None | Some(value: T) {

    /** The held value, or `default` when absent (Ruby's `||=`). */
    function GetOr(default: T): T {
      match this
      case Some(v) => v
      case None => default
    }
  }
}

module Seqs {

  /** `sub` is `s` with some elements dropped and the rest kept in their order. */
  ghost predicate SubsequenceOf<T>(sub: seq<T>, s: seq<T>)
    decreases |s|
  {
    if |sub| == 0 then true
    else if |s| == 0 then false
    else if sub[0] == s[0] then SubsequenceOf(sub[1..], s[1..])
    else SubsequenceOf(sub, s[1..])
  }

  /** Ruby's `select`: keeps the elements satisfying `keep`, in order and with their
      multiplicities, and drops every other element. */
  function Filter<T>(keep: T -> bool, s: seq<T>): (r: seq<T>)
    ensures SubsequenceOf(r, s)
    ensures forall i :: 0 <= i < |r| ==> keep(r[i]) && r[i] in s
    ensures forall i :: 0 <= i < |s| && keep(s[i]) ==> s[i] in r
    ensures |r| <= |s|
    ensures forall i :: 0 <= i < |s| ==> multiset(r)[s[i]] == if keep(s[i]) then multiset(s)[s[i]] else 0
  {
    if |s| == 0 then []
    else
      var rest := Filter(keep, s[1..]);
      FilterStep(keep, s, rest);
      if keep(s[0]) then [s[0]] + rest else rest
  }

  /** Each of `Filter`'s properties carries over from the filtered tail to the whole. */
  lemma FilterStep<T>(keep: T -> bool, s: seq<T>, rest: seq<T>)
    requires |s| > 0
    requires SubsequenceOf(rest, s[1..])
    requires forall i :: 0 <= i < |rest| ==> keep(rest[i]) && rest[i] in s[1..]
    requires forall i :: 0 <= i < |s[1..]| && keep(s[1..][i]) ==> s[1..][i] in rest
    requires |rest| <= |s[1..]|
    requires forall j :: 0 <= j < |s[1..]| ==>
      multiset(rest)[s[1..][j]] == if keep(s[1..][j]) then multiset(s[1..])[s[1..][j]] else 0
    ensures var r := if keep(s[0]) then [s[0]] + rest else rest;
      && SubsequenceOf(r, s)
      && (forall i :: 0 <= i < |r| ==> keep(r[i]) && r[i] in s)
      && (forall i :: 0 <= i < |s| && keep(s[i]) ==> s[i] in r)
      && |r| <= |s|
      && (forall i :: 0 <= i < |s| ==> multiset(r)[s[i]] == if keep(s[i]) then multiset(s)[s[i]] else 0)
  {
    var r := if keep(s[0]) then [s[0]] + rest else rest;
    if keep(s[0]) {
      assert r[1..] == rest;
    }
    forall i | 0 <= i < |s| && keep(s[i])
      ensures s[i] in r
    {
      if i > 0 {
        assert s[i] == s[1..][i - 1];
      }
    }
    FilterCountStep(keep, s, rest);
  }

  /** The sequences of `ss` joined end to end, in order. */
  function Flatten<T>(ss: seq<seq<T>>): seq<T>
    decreases |ss|
  {
    if |ss| == 0 then [] else ss[0] + Flatten(ss[1..])
  }

  /** Multiplicities carry over from the filtered tail to the filtered sequence. */
  lemma FilterCountStep<T>(keep: T -> bool, s: seq<T>, rest: seq<T>)
    requires |s| > 0
    requires forall y :: y in rest ==> y in s[1..]
    requires forall j :: 0 <= j < |s[1..]| ==>
      multiset(rest)[s[1..][j]] == if keep(s[1..][j]) then multiset(s[1..])[s[1..][j]] else 0
    ensures var r := if keep(s[0]) then [s[0]] + rest else rest;
      forall i :: 0 <= i < |s| ==> multiset(r)[s[i]] == if keep(s[i]) then multiset(s)[s[i]] else 0
  {
    var r := if keep(s[0]) then [s[0]] + rest else rest;
    assert s == [s[0]] + s[1..];
    assert multiset(s) == multiset{s[0]} + multiset(s[1..]);
    assert multiset(r) == (if keep(s[0]) then multiset{s[0]} else multiset{}) + multiset(rest);
    forall i | 0 <= i < |s|
      ensures multiset(r)[s[i]] == if keep(s[i]) then multiset(s)[s[i]] else 0
    {
      var x := s[i];
      if x in s[1..] {
        var j :| 0 <= j < |s[1..]| && s[1..][j] == x;
        assert multiset(rest)[x] == if keep(x) then multiset(s[1..])[x] else 0;
      } else {
        assert x !in rest;
        assert multiset(rest)[x] == 0 && multiset(s[1..])[x] == 0;
      }
    }
  }
}
